=== FILE: README.md ===
# Three tslint rules, modelled in Dafny

This project models three lint rules of the `misc-tslint-rules` collection and
proves properties of them.

- `sort-imports` (`rules/sortImportsRule.ts`) is the main rule.
  - It splits a file's top-level statements into import groups. A group is a maximal run of import declarations and import-equals declarations, the latter being `import x = require(...)` or `import x = A.B`.
  - Each import gets a sort key: its text in lower case, with the first `import {` changed to `import +` so that named imports sort before default imports. With the `whitespace-insensitive` option the key then goes through `normalizeAllWhitespace`: every white-space run becomes one space, and after that the first `, }` becomes ` }`.
  - The keys are sorted. Side-effect imports (`import 'x'`) compare equal to each other.
  - The first position where the sorted and the source order disagree, with neither import a side-effect import, yields one failure. Its message names the expected and the actual import. Its fix rewrites the whole group in sorted order.
- `class-method-newlines` (`rules/classMethodNewlinesRule.ts`) requires an empty line before every class method.
  - The class's first member and a further signature of an overload need only one line break.
  - Extra line breaks are allowed when a `//` or `/**` comment sits between them.
  - The fix inserts one line break.
- `no-braces-for-single-line-arrow-functions` (`rules/noBracesForSingleLineArrowFunctionsRule.ts`) reports a braced arrow-function body that holds one statement and sits on one line.
  - The fix replaces the block by the statement's text with its final semicolon removed.
  - For a `return`, the fix is the returned expression, in parentheses when it is an object literal.

Modules:

| file | module | contents |
|---|---|---|
| `wrappers.dfy` | `Wrappers` | `Option` |
| `strings.dfy` | `Strings` | the JavaScript string operations the rules use: the `\s` class, `trim`, `toLowerCase`, first-match `replace`, `join`, `normalizeAllWhitespace`, `length` in UTF-16 code units |
| `lex_order.dfy` | `LexOrder` | JavaScript's `<` on strings, a strict total order |
| `import_order.dfy` | `ImportOrder` | the sort-imports comparator and the stable sort it drives |
| `sort_imports.dfy` | `SortImports` | import groups, sort keys, the key table, the per-group verdict, the walk |
| `class_method_newlines.dfy` | `ClassMethodNewlines` | the per-method check and `validate` |
| `no_braces_arrow.dfy` | `NoBracesArrow` | the body check and `getFixedText` |

The TypeScript parser's answers are fields of the model's datatypes. These include a statement's kind, its text with and without leading trivia, its start, end and first token, a method's name and leading white space, and a block's statement list. `detect-newline`'s verdict on the file is a parameter.

## Where the model follows the code rather than the rules' stated intent

- Failure messages quote `getText` of the import clause, for example `'{ a }'`, not just the bound name.
- Take a group that is a non-side-effect import `z`, then a side-effect import, then an import `a`.
  - The failure is reported at the third import, expecting `z` and seeing `a`.
  - The fix puts the side-effect import first: the sorted keys are side effect, `a`, `z` (`SortImports.SideEffectBetweenSorted`).
- With `whitespace-insensitive`, `import {` is replaced before white space is collapsed.
  - So `import  {a}` (two spaces) keeps its brace and gets a different key from `import {a}` (`SortImports.SpaceBeforeBraceChangesKey`).
- The fix's line separator comes from `detect-newline` applied to the whole file, not from the imports' own line breaks.
- In `class-method-newlines`, leading white space with no line break makes `match(/\n/g)` return `null`.
  - Reading `.length` of it throws a `TypeError`. Neither `validate` nor the visit methods catch it (`rules/classMethodNewlinesRule.ts:6-21`), so it leaves `apply`.
  - The failures already added are then never returned, and the classes the walker would visit later, including classes nested in this one, are not checked.
  - `Validate` returns the `Threw` verdict and the `Aborted` outcome for the class. `FileFailures` is then `None` for the whole file: its failures are never returned.
- The fix of `sort-imports` replaces the text from `getStart` of the first import, after its leading comments. Each import's piece is its trimmed `getFullText`, which includes its leading comments. So a comment in front of the first import stays in place and appears once more inside the fix.
- Only `//` and `/**` count as comments; a plain block comment does not excuse extra line breaks (`ClassMethodNewlines.PlainBlockCommentStillFires`).
- For a bare `return;`, the child after the keyword is the semicolon, not an object literal, and the fix is empty (`NoBracesArrow.BareReturnFix`).
- JavaScript's `sort` with the rule's comparator is not guaranteed to give any particular order.
  - The comparator is not a consistent comparator when a key falls between two side-effect keys, which compare equal to each other.
  - The model fixes the result to a stable insertion sort and proves what holds in any case: it is a permutation and it keeps the side-effect imports in source order.
  - When the comparator is consistent, the result is sorted and is the only stable sorted permutation.

## Model

| member | source | states |
|---|---|---|
| `SortImports.ArgumentIndex` | rules/sortImportsRule.ts:13 | `indexOf`: the first index holding the argument, or -1 exactly when the argument is absent |
| `SortImports.ParseOptions` | rules/sortImportsRule.ts:11-14 | the option is on exactly when `whitespace-insensitive` is among the rule arguments |
| `SortImports.SideEffectClassification` | rules/sortImportsRule.ts:154-160 | an import is a side-effect import exactly when it is an import declaration without an import clause; an import-equals declaration never is |
| `SortImports.BindingName` | rules/sortImportsRule.ts:139-152 | the name in a message is the import-equals name, or the import clause, or (for a side-effect import) the module specifier |
| `SortImports.GetImportGroups` | rules/sortImportsRule.ts:98-113 | the groups are exactly the maximal runs of imports, non-empty, in file order, and together they hold every import of the file in order |
| `SortImports.DropEmptyGroups` | rules/sortImportsRule.ts:112 | dropping the empty raw groups leaves the maximal runs of imports, in file order, covering every import |
| `SortImports.AdjacentImportsShareGroup` | rules/sortImportsRule.ts:102-110 | an import directly followed by another import is not the last of its group |
| `SortImports.GroupsAreImportRuns` | rules/sortImportsRule.ts:98-113 | every group is non-empty and holds imports only |
| `SortImports.NamedImportKey` | rules/sortImportsRule.ts:27-34 | an import starting with `import {` (in any case) gets the key `import +` followed by the rest in lower case, normalised when the option is on |
| `SortImports.KeyWithoutNamedOpening` | rules/sortImportsRule.ts:27-30 | with the option off and without `import {` in the lower-cased text, the key is just the lower-cased text |
| `SortImports.KeyRunInsensitive` | rules/sortImportsRule.ts:27-34 | with the option on, two named imports that differ only in one white-space run after the opening get equal keys |
| `SortImports.KeyRunInsensitiveUnnamed` | rules/sortImportsRule.ts:27-34 | with the option on, two imports without `import {` that differ only in one white-space run get equal keys |
| `SortImports.KeyWhitespaceSensitive` | rules/sortImportsRule.ts:27-34 | with the option off, two imports that differ only in one white-space run get different keys |
| `SortImports.KeyKeepsAllButBrace` | rules/sortImportsRule.ts:27-30 | with the option off, the key has the text's length and agrees with the lower-cased text at every position not holding `{` |
| `SortImports.KeyAroundRun` | rules/sortImportsRule.ts:27-34 | the key of a named import with a white-space run after the opening keeps the run verbatim before normalising |
| `SortImports.SpaceBeforeBraceChangesKey` | rules/sortImportsRule.ts:27-34 | `import {a}` gets the `+` of a named import; `import  {a}` does not, even with the option on |
| `SortImports.KeyTable` | rules/sortImportsRule.ts:23-37 | the map has exactly the keys of the group; for a repeated key the last import with it wins |
| `SortImports.LastOccurrenceExists` | rules/sortImportsRule.ts:36 | every key has a last occurrence in the group |
| `SortImports.TableEntryInGroup` | rules/sortImportsRule.ts:36 | every map entry is an import of the group |
| `SortImports.DuplicateKeyRepeatsLast` | rules/sortImportsRule.ts:36 | an earlier import whose key repeats later maps to the later import |
| `SortImports.Analyze` | rules/sortImportsRule.ts:23-49 | the sorted keys are a permutation of the keys, and a key is marked side-effect exactly when its map entry is a side-effect import |
| `SortImports.FirstMismatchFrom` | rules/sortImportsRule.ts:51-58 | the first reportable position from `i` on, or none when no later position is reportable |
| `SortImports.FindIndex` | rules/sortImportsRule.ts:115-121 | the first index where the predicate holds, or none exactly when no element matches |
| `SortImports.FailureAnchor` | rules/sortImportsRule.ts:86-89 | the failure sits on the first token exactly when the trimmed text spans several lines, and on the whole import exactly when it does not |
| `SortImports.Verdict` | rules/sortImportsRule.ts:51-93 | a failure's fix spans the group from the first import's start to the last import's end, and its anchor is on an import of the group |
| `SortImports.CheckLines` | rules/sortImportsRule.ts:22-94 | the same span guarantee for the verdict computed from a group's keys |
| `SortImports.CheckGroup` | rules/sortImportsRule.ts:22-94 | the same span guarantee for the verdict computed from a group and the options |
| `SortImports.VerdictFiresIff` | rules/sortImportsRule.ts:51-58 | a group fails exactly when at some position the source key and the sorted key differ and neither is a side-effect import's key |
| `SortImports.SortedGroupPasses` | rules/sortImportsRule.ts:40-58 | a group already in comparator order draws no failure |
| `SortImports.SideEffectGroupPasses` | rules/sortImportsRule.ts:40-58 | a group of side-effect imports only draws no failure |
| `SortImports.FailureDetails` | rules/sortImportsRule.ts:59-91 | the failure is at the first reportable position; its message names the first import whose key is the expected key, and the import found there |
| `SortImports.FailureFix` | rules/sortImportsRule.ts:69-84 | the fix replaces the group's span with the sorted imports' trimmed full texts joined by the file's newline |
| `SortImports.FixIsReordering` | rules/sortImportsRule.ts:69-74 | with distinct keys, the fix pieces are a permutation of the group's own trimmed texts |
| `SortImports.LookupPermutation` | rules/sortImportsRule.ts:69-74 | looking up a permutation of keys gives a permutation of the values |
| `SortImports.LookupConcat` | rules/sortImportsRule.ts:69-74 | lookup distributes over concatenation |
| `SortImports.SideEffectBetweenOutOfOrderImports` | rules/sortImportsRule.ts:40-67 | for `z`, a side-effect import, `a`: the failure is at the third import, expecting the first |
| `SortImports.SideEffectBetweenSorted` | rules/sortImportsRule.ts:40-74 | for the same group the sorted order is side effect, `a`, `z`, and so is the fix |
| `SortImports.Verdicts` | rules/sortImportsRule.ts:22-95 | one verdict per group, each the group's own check |
| `SortImports.Reported` | rules/sortImportsRule.ts:91-92 | the failures are exactly the groups' failures, at most one per group, none when every group passes |
| `SortImports.ReportedInOrder` | rules/sortImportsRule.ts:91-92 | reporting the verdicts of two runs of groups one after the other gives the first run's failures, then the second's, in order |
| `SortImports.Walk` | rules/sortImportsRule.ts:21-96 | `walk` finds the import groups and reports each group's failure, in group order |
| `Strings.TrimStart` | rules/sortImportsRule.ts:73 | the result is a suffix, only white space is dropped, and it starts with a non-white-space character |
| `Strings.TrimEnd` | rules/sortImportsRule.ts:73 | the result is a prefix, only white space is dropped, and it ends with a non-white-space character |
| `Strings.Trim` | rules/sortImportsRule.ts:73 | the trimmed text starts and ends with non-white-space, or is empty |
| `Strings.TrimOnlyEdges` | rules/sortImportsRule.ts:73 | the trimmed text is one contiguous slice of the input with nothing but white space before and after it |
| `Strings.TrimKeepsOnly` | rules/sortImportsRule.ts:73 | trimming adds no character |
| `Strings.IndexOf` | rules/sortImportsRule.ts:30 | the first occurrence of the pattern, or none exactly when it never occurs |
| `Strings.ReplaceFirst` | rules/sortImportsRule.ts:30 | only the first occurrence is replaced; without one the text is unchanged |
| `Strings.ReplaceFirstAtStart` | rules/sortImportsRule.ts:30 | a text starting with the pattern has just that prefix replaced |
| `Strings.ReplaceFirstAddsOnlyReplacement` | rules/sortImportsRule.ts:30 | replacing adds no character beyond those of the replacement |
| `Strings.Join` | rules/sortImportsRule.ts:83 | joining no parts gives the empty text; otherwise the length is the parts' total length plus one separator between each two neighbours |
| `Strings.JoinAppend` | rules/sortImportsRule.ts:83 | joining two non-empty lists is joining each and putting one separator between the two results |
| `Strings.CollapseWhitespace` | rules/sortImportsRule.ts:163 | the result holds no white space other than single spaces, never two of them adjacent; its non-white-space text is the original's; it is empty, or starts with white space, exactly when the original is |
| `Strings.CollapseFixpoint` | rules/sortImportsRule.ts:163 | a text that is already collapsed is left unchanged |
| `Strings.CollapseWordPrefix` | rules/sortImportsRule.ts:163 | a prefix without white space stays verbatim in front of the collapsed rest |
| `Strings.CollapseRunBecomesSpace` | rules/sortImportsRule.ts:163 | a prefix without white space followed by a white-space run collapses to the prefix, one space, and the collapsed rest with its leading white space absorbed into the same run |
| `Strings.CollapseIdempotent` | rules/sortImportsRule.ts:163 | collapsing twice is collapsing once |
| `Strings.CollapseKeepsChar` | rules/sortImportsRule.ts:163 | a non-white-space character is in the collapsed text exactly when it is in the original |
| `Strings.CollapseRunInsensitive` | rules/sortImportsRule.ts:163 | what one white-space run is made of does not matter to the collapsed text |
| `Strings.NormalizeRunInsensitive` | rules/sortImportsRule.ts:162-164 | the same holds for `normalizeAllWhitespace` |
| `Strings.Utf16Length` | rules/classMethodNewlinesRule.ts:46 | JavaScript's `length`: at least the character count and at most twice it, and equal to it exactly when no character lies above U+FFFF |
| `Strings.Utf16LengthConcat` | rules/classMethodNewlinesRule.ts:46 | the UTF-16 length is additive over concatenation |
| `Strings.OneSupplementaryChar` | rules/classMethodNewlinesRule.ts:46 | one character above U+FFFF among others adds exactly one to the length |
| `Strings.Count` | rules/classMethodNewlinesRule.ts:29 | the count is zero exactly when the character is absent |
| `Strings.CountConcat` | rules/classMethodNewlinesRule.ts:29 | counting is additive over concatenation |
| `LexOrder.Transitive` | rules/sortImportsRule.ts:48 | JavaScript's string `<` is transitive |
| `LexOrder.Trichotomy` | rules/sortImportsRule.ts:48 | any two strings are equal or ordered one way by `<` |
| `LexOrder.Asymmetric` | rules/sortImportsRule.ts:48 | never both `a < b` and `b < a` |
| `ImportOrder.Compare` | rules/sortImportsRule.ts:40-49 | the comparator returns 0 exactly for two side-effect keys or equal keys, and otherwise follows `<` |
| `ImportOrder.Sort` | rules/sortImportsRule.ts:40 | the sorted keys are a permutation of the keys |
| `ImportOrder.SortKeepsSideEffectOrder` | rules/sortImportsRule.ts:40-49 | the side-effect keys keep their source order |
| `ImportOrder.SortSorted` | rules/sortImportsRule.ts:40-49 | when the comparator is consistent on the keys, the result is in comparator order |
| `ImportOrder.SortOfSorted` | rules/sortImportsRule.ts:40-49 | keys already in comparator order are left as they are |
| `ImportOrder.SortIsTheStableSort` | rules/sortImportsRule.ts:40-49 | a sorted permutation that keeps the side-effect keys in order is the sort's result |
| `ImportOrder.StableSortUnique` | rules/sortImportsRule.ts:40-49 | two sorted permutations with the same side-effect order are equal |
| `ImportOrder.SeparatedIsConsistent` | rules/sortImportsRule.ts:40-49 | when no other key falls between two side-effect keys, the comparator is consistent |
| `ImportOrder.SortAroundSideEffect` | rules/sortImportsRule.ts:40-49 | for keys `a`, `b`, `c` in that order, where only `b` is a side-effect key and `b < c < a`, the sort gives `b`, `c`, `a`: the side-effect key moves to the front |
| `ClassMethodNewlines.NewlineCount` | rules/classMethodNewlinesRule.ts:29 | the count of line feeds, absent exactly when there is none |
| `ClassMethodNewlines.PreviousIndex` | rules/classMethodNewlinesRule.ts:27-59 | the previous method is the one before, and the first method is its own previous method |
| `ClassMethodNewlines.ExpectedNewlines` | rules/classMethodNewlinesRule.ts:31-36 | a method needs one line break exactly when it is the class's first member or has the same name as the method before it, and two otherwise |
| `ClassMethodNewlines.FixNewline` | rules/classMethodNewlinesRule.ts:42 | the fix inserts CRLF exactly when the leading text contains CRLF, else LF |
| `ClassMethodNewlines.CheckMethod` | rules/classMethodNewlinesRule.ts:28-56 | the check throws exactly when there is no line feed; it passes exactly when the count is what the method needs, or more with a comment; a failure sits on the name and inserts at the start of the leading text, found by subtracting the text's UTF-16 length from the name's start |
| `ClassMethodNewlines.FailuresBefore` | rules/classMethodNewlinesRule.ts:27-59 | at most one failure per method checked; every failure is the failure of one of those methods; the list is empty exactly when none of them fires |
| `ClassMethodNewlines.FailuresStep` | rules/classMethodNewlinesRule.ts:27-59 | checking one more method appends its failure, if it fires, after the failures of the methods before it |
| `ClassMethodNewlines.FailuresGrow` | rules/classMethodNewlinesRule.ts:27-59 | the failures of the first methods are a prefix of the failures of one more method |
| `ClassMethodNewlines.ReduceStep` | rules/classMethodNewlinesRule.ts:27-59 | the `reduce` callback, given the previous method's index, reaches the method's verdict |
| `ClassMethodNewlines.Validate` | rules/classMethodNewlinesRule.ts:23-60 | the walk completes exactly when every method has a line feed and then reports every method's failure in order; otherwise it stops at the first method without one, keeping the failures before it |
| `ClassMethodNewlines.FileFailures` | rules/classMethodNewlinesRule.ts:6-29 | the file's failures are never returned (`None`) exactly when some class has a method without a line feed before it |
| `ClassMethodNewlines.FileFailuresConcat` | rules/classMethodNewlinesRule.ts:12-59 | when no class throws, the file's failures are the classes' failures concatenated in visiting order |
| `ClassMethodNewlines.FileFailuresAreClassFailures` | rules/classMethodNewlinesRule.ts:12-59 | when no class throws, a failure is reported for the file exactly when it is a failure of one of its classes |
| `ClassMethodNewlines.FirstMethodIsNoOverload` | rules/classMethodNewlinesRule.ts:31-36 | the first method is never an overload, so it needs one line break exactly when it is the class's first member |
| `ClassMethodNewlines.FixAddsOneNewline` | rules/classMethodNewlinesRule.ts:42-47 | the fix adds exactly one line feed and does not change the comment test |
| `ClassMethodNewlines.FixRepairsTooFew` | rules/classMethodNewlinesRule.ts:38-47 | a method with too few line breaks fires, and passes once its fix is applied |
| `ClassMethodNewlines.TooManyKeepsFiring` | rules/classMethodNewlinesRule.ts:38-47 | a method with too many line breaks and no comment fires, and still fires after its fix |
| `ClassMethodNewlines.PlainBlockCommentStillFires` | rules/classMethodNewlinesRule.ts:30-41 | whenever the leading text holds a `/*` comment but neither `//` nor `/**`, and has more line feeds than the method needs, the method fires |
| `ClassMethodNewlines.BlockCommentSampleFires` | rules/classMethodNewlinesRule.ts:30-41 | three blank lines and a `/* a */` comment before a method draw a failure |
| `ClassMethodNewlines.EmojiCommentFixOffset` | rules/classMethodNewlinesRule.ts:28-47 | with the leading text `/* 😀 */` and a line feed, which is 8 characters but 9 UTF-16 code units, the fix is inserted 9 positions before the name |
| `NoBracesArrow.Check` | rules/noBracesForSingleLineArrowFunctionsRule.ts:15-47 | a failure exactly for a block body with one statement and no line feed in its full text; failure and fix cover the body's span, with the fixed text |
| `NoBracesArrow.StripSemicolon` | rules/noBracesForSingleLineArrowFunctionsRule.ts:66-68 | the trimmed text with its one final semicolon removed, if it has one |
| `NoBracesArrow.StripKeepsOnly` | rules/noBracesForSingleLineArrowFunctionsRule.ts:66-68 | stripping adds no character |
| `NoBracesArrow.StripOfPlain` | rules/noBracesForSingleLineArrowFunctionsRule.ts:66-68 | a statement without surrounding white space loses exactly its final semicolon |
| `NoBracesArrow.OneSemicolonRemoved` | rules/noBracesForSingleLineArrowFunctionsRule.ts:66-68 | of two final semicolons only one is removed |
| `NoBracesArrow.FixedText` | rules/noBracesForSingleLineArrowFunctionsRule.ts:49-64 | a statement other than a return is fixed to its stripped text |
| `NoBracesArrow.FixAddsOnlyParentheses` | rules/noBracesForSingleLineArrowFunctionsRule.ts:49-64 | the fix holds only characters of the statement list, plus the two parentheses |
| `NoBracesArrow.FixIsOneLine` | rules/noBracesForSingleLineArrowFunctionsRule.ts:44-64 | the fix of a one-line body is on one line |
| `NoBracesArrow.SpaceBeforeSemicolonKept` | rules/noBracesForSingleLineArrowFunctionsRule.ts:49-68 | white space before the final semicolon survives in the fix |
| `NoBracesArrow.ReturnFix` | rules/noBracesForSingleLineArrowFunctionsRule.ts:54-60 | a return's fix is the trimmed text after the keyword, parenthesised for an object literal |
| `NoBracesArrow.ReturnExpressionFix` | rules/noBracesForSingleLineArrowFunctionsRule.ts:49-64 | `{ return e; }` is fixed to `e`, or `(e)` for an object literal |
| `NoBracesArrow.BareReturnFix` | rules/noBracesForSingleLineArrowFunctionsRule.ts:54-60 | a bare `return;` is fixed to the empty text |

## Left out

- `rules/jsxExpressionSpacingRule.ts` is not part of this model.
- The tslint plumbing is not modelled: `apply`, the walkers' visitor recursion, and how failures are turned into reports. The rules see their inputs as values.
- The TypeScript parser is not modelled. Node kinds, texts, positions, first tokens and child nodes are datatype fields. Positions are the parser's offsets, which count UTF-16 code units, so arithmetic that mixes them with a text's length uses `Strings.Utf16Length`.
- `getClassMethods` and `getLeadingWhitespace` are not part of this model. Their results are the `ClassMethod` fields.
- `detect-newline` is not modelled. Its verdict is the `Newline` parameter.
- Applying a fix to the file and parsing the file again are not modelled. The fix lemmas state the effect on the values the rules read.
- `ImportOrder.Sort`: JavaScript's `Array.prototype.sort` leaves the order open when the comparator is inconsistent. The model fixes one stable insertion sort instead of every order an engine might produce.
- `Strings.Lower`: only ASCII letters are lowered. `toLowerCase` also maps other letters, including some that change length.
- `LexOrder.Less`: characters are compared as Unicode scalar values, while JavaScript compares UTF-16 code units. The two orders differ only for characters outside the Basic Multilingual Plane.
- `Strings.IsWhitespace`: the set of characters `\s` and `trim` match is written out as a fixed list. There is no regular-expression engine.
- `ClassMethodNewlines.FileFailures`: the order in which the walker visits the classes is an input, a list of classes. What the linter does with the exception that leaves `apply` is not modelled; `None` only says that the file's failures are not returned.
- `ClassMethodNewlines.Validate`: the `Aborted` outcome ends the model at the throw. The model does not continue past it.
- `SortImports.FailureMessage`: this builds the message text. It has no contract of its own; `FailureDetails` states which imports the message names.

=== FILE: class_method_newlines.dfy ===
/**
 * The blank-line rule for class methods (`rules/classMethodNewlinesRule.ts`):
 * every method of a class must be preceded by an empty line, except the
 * class's first member and a further signature of an overload, which need only
 * a line break. The helpers that list a class's methods and cut out the white
 * space and comments before a method are not part of this model: their results
 * are the fields of `ClassMethod`.
 */
module ClassMethodNewlines {
  import opened Wrappers
  import Strings

  /**
   * One method as `validate` sees it: the text of its name, the leading
   * white space and comments before it, whether it is `node.members[0]`, and
   * the start and width of its name.
   */
  datatype ClassMethod = ClassMethod(
    name: string,
    leadingWhitespace: string,
    isFirstMember: bool,
    nameStart: int,
    nameWidth: int)

  /** `appendText(at, text)`: an insertion that removes nothing. */
  datatype Insertion = Insertion(at: int, text: string)

  datatype MethodFailure = MethodFailure(start: int, width: int, message: string, fix: Insertion)

  /** The verdict on one method; `Threw` is the `TypeError` of `match(...).length` on `null`. */
  datatype Verdict = Threw | Passes | Fires(failure: MethodFailure)

  /**
   * The outcome of `validate` on one class: every method checked, or an
   * exception at method `at`; `failuresBefore` are the failures added before
   * it, which the exception keeps from ever being returned.
   */
  datatype Outcome = Completed(failures: seq<MethodFailure>) | Aborted(at: nat, failuresBefore: seq<MethodFailure>)

  const Message := "class methods should be preceded by an empty line"

  /** `leadingWhitespace.match(/\n/g).length`: absent where `match` finds nothing and returns `null`. */
  function NewlineCount(ws: string): (r: Option<nat>)
    ensures r.None? <==> '\n' !in ws
    ensures r.Some? ==> r.value == Strings.Count(ws, '\n') && r.value >= 1
  {
    var n := Strings.Count(ws, '\n');
    if n == 0 then None else Some(n)
  }

  // The regular-expression test of the leading text for a line comment
  // opener "//" or a doc comment opener "/**"; a plain "/*" does not count.
  predicate HasComments(ws: string) {
    Strings.Contains(ws, "//") || Strings.Contains(ws, "/**")
  }

  /**
   * The `previousMethod` that `reduce` passes with method `i`: the method
   * itself for the first one (the initial value is `methods[0]`), else the one before.
   */
  function PreviousIndex(i: nat): (p: nat)
    ensures p <= i && (i > 0 ==> p == i - 1)
  {
    if i == 0 then 0 else i - 1
  }

  /** A further signature of an overload: another method with the same name right before. */
  predicate IsOverload(methods: seq<ClassMethod>, i: nat)
    requires i < |methods|
  {
    var p := PreviousIndex(i);
    p != i && methods[i].name == methods[p].name
  }

  function ExpectedNewlines(methods: seq<ClassMethod>, i: nat): (n: nat)
    requires i < |methods|
    ensures n == 1 || n == 2
    ensures n == 1 <==> methods[i].isFirstMember || (i > 0 && methods[i].name == methods[i - 1].name)
  {
    if methods[i].isFirstMember || IsOverload(methods, i) then 1 else 2
  }

  /** `leadingWhitespace.match('\r\n') ? '\r\n' : '\n'`. */
  function FixNewline(ws: string): (nl: string)
    ensures nl == "\r\n" || nl == "\n"
    ensures nl == "\r\n" <==> Strings.Contains(ws, "\r\n")
  {
    if Strings.Contains(ws, "\r\n") then "\r\n" else "\n"
  }

  /** The body of the `reduce` callback for method `i`. */
  function CheckMethod(methods: seq<ClassMethod>, i: nat): (v: Verdict)
    requires i < |methods|
    ensures v.Threw? <==> '\n' !in methods[i].leadingWhitespace
    ensures v.Fires? ==> v.failure.start == methods[i].nameStart && v.failure.width == methods[i].nameWidth
    ensures v.Fires? ==> v.failure.fix.at == methods[i].nameStart - Strings.Utf16Length(methods[i].leadingWhitespace)
    ensures v.Fires? ==> v.failure.message == Message && v.failure.fix.text == FixNewline(methods[i].leadingWhitespace)
    ensures v.Passes? <==>
              var n := Strings.Count(methods[i].leadingWhitespace, '\n');
              var e := ExpectedNewlines(methods, i);
              n > 0 && (n == e || (n > e && HasComments(methods[i].leadingWhitespace)))
  {
    var m := methods[i];
    match NewlineCount(m.leadingWhitespace)
    case None => Threw
    case Some(n) =>
      var expected := ExpectedNewlines(methods, i);
      if n < expected || (n > expected && !HasComments(m.leadingWhitespace)) then
        var fix := Insertion(m.nameStart - Strings.Utf16Length(m.leadingWhitespace), FixNewline(m.leadingWhitespace));
        Fires(MethodFailure(m.nameStart, m.nameWidth, Message, fix))
      else Passes
  }

  /** The failures of methods `0..k`, none of which throws. */
  function FailuresBefore(methods: seq<ClassMethod>, k: nat): (fs: seq<MethodFailure>)
    requires k <= |methods|
    requires forall j :: 0 <= j < k ==> '\n' in methods[j].leadingWhitespace
    ensures |fs| <= k
    ensures forall x :: 0 <= x < |fs| ==> exists j :: 0 <= j < k && CheckMethod(methods, j) == Fires(fs[x])
    ensures fs == [] <==> forall j :: 0 <= j < k ==> !CheckMethod(methods, j).Fires?
  {
    if k == 0 then []
    else
      var prev := FailuresBefore(methods, k - 1);
      match CheckMethod(methods, k - 1)
      case Fires(f) => prev + [f]
      case _ => prev
  }

  /**
   * `validate`: `methods.reduce` with `methods[0]` as the initial previous
   * method. Methods are checked in order; the first one whose leading white
   * space has no line break ends the walk with an exception.
   */
  method Validate(methods: seq<ClassMethod>) returns (outcome: Outcome)
    ensures outcome.Completed? <==> forall j :: 0 <= j < |methods| ==> '\n' in methods[j].leadingWhitespace
    ensures outcome.Completed? ==> outcome.failures == FailuresBefore(methods, |methods|)
    ensures outcome.Aborted? ==>
              && outcome.at < |methods|
              && '\n' !in methods[outcome.at].leadingWhitespace
              && (forall j :: 0 <= j < outcome.at ==> '\n' in methods[j].leadingWhitespace)
              && outcome.failuresBefore == FailuresBefore(methods, outcome.at)
  {
    var failures: seq<MethodFailure> := [];
    var previous := 0;
    var i := 0;
    while i < |methods|
      invariant 0 <= i <= |methods|
      invariant previous == PreviousIndex(i)
      invariant forall j :: 0 <= j < i ==> '\n' in methods[j].leadingWhitespace
      invariant failures == FailuresBefore(methods, i)
    {
      var verdict := ReduceStep(methods, i, previous);
      if verdict.Threw? {
        return Aborted(i, failures);
      }
      FailuresStep(methods, i);
      if verdict.Fires? {
        failures := failures + [verdict.failure];
      }
      previous := i;
      i := i + 1;
    }
    return Completed(failures);
  }

  /**
   * The `reduce` callback itself, given the index of the previous method as
   * `reduce` hands it over; it reaches the verdict of `CheckMethod`.
   */
  method ReduceStep(methods: seq<ClassMethod>, i: nat, previous: nat) returns (verdict: Verdict)
    requires i < |methods| && previous == PreviousIndex(i)
    ensures verdict == CheckMethod(methods, i)
  {
    var ws := methods[i].leadingWhitespace;
    var count := NewlineCount(ws);
    if count.None? {
      return Threw;
    }
    var overload := i != previous && methods[i].name == methods[previous].name;
    var expected := if methods[i].isFirstMember || overload then 1 else 2;
    assert expected == ExpectedNewlines(methods, i);
    CheckMethodFromCount(methods, i, count.value, expected);
    if count.value < expected || (count.value > expected && !HasComments(ws)) {
      var fix := Insertion(methods[i].nameStart - Strings.Utf16Length(ws), FixNewline(ws));
      return Fires(MethodFailure(methods[i].nameStart, methods[i].nameWidth, Message, fix));
    }
    return Passes;
  }

  /**
   * The verdict on method `i` as `validate`'s loop reaches it: from the line
   * feed count `n` and the expected count.
   */
  lemma CheckMethodFromCount(methods: seq<ClassMethod>, i: nat, n: nat, expected: nat)
    requires i < |methods|
    requires NewlineCount(methods[i].leadingWhitespace) == Some(n)
    requires expected == ExpectedNewlines(methods, i)
    ensures var m := methods[i];
            var ws := m.leadingWhitespace;
            CheckMethod(methods, i) ==
              if n < expected || (n > expected && !HasComments(ws))
              then Fires(MethodFailure(m.nameStart, m.nameWidth, Message, Insertion(m.nameStart - Strings.Utf16Length(ws), FixNewline(ws))))
              else Passes
  {
  }

  /** Checking one more method only appends to the failures. */
  lemma FailuresGrow(methods: seq<ClassMethod>, i: nat)
    requires i < |methods| && forall j :: 0 <= j <= i ==> '\n' in methods[j].leadingWhitespace
    ensures FailuresBefore(methods, i) <= FailuresBefore(methods, i + 1)
  {
    FailuresStep(methods, i);
    var v := CheckMethod(methods, i);
    PrefixOfExtension(FailuresBefore(methods, i), if v.Fires? then [v.failure] else []);
  }

  lemma PrefixOfExtension<T>(a: seq<T>, c: seq<T>)
    ensures a <= a + c
  {
    assert (a + c)[..|a|] == a;
  }

  lemma FailuresStep(methods: seq<ClassMethod>, i: nat)
    requires i < |methods| && forall j :: 0 <= j <= i ==> '\n' in methods[j].leadingWhitespace
    ensures var v := CheckMethod(methods, i);
            FailuresBefore(methods, i + 1) == FailuresBefore(methods, i) + (if v.Fires? then [v.failure] else [])
  {
  }

  /** Some method of the class has no line feed before it, so `validate` throws there. */
  predicate Throws(methods: seq<ClassMethod>) {
    exists j :: 0 <= j < |methods| && '\n' !in methods[j].leadingWhitespace
  }

  /**
   * The rule on one file: `validate` on each class in the order the walker
   * visits them, a class before the classes nested in it. Nothing in the rule
   * catches the exception of one class, so it leaves `apply` and the file
   * yields no failures at all (`None`); otherwise every class contributes its
   * failures in visiting order.
   */
  function FileFailures(classes: seq<seq<ClassMethod>>): (r: Option<seq<MethodFailure>>)
    ensures r.None? <==> exists k :: 0 <= k < |classes| && Throws(classes[k])
  {
    if |classes| == 0 then Some([])
    else
      var init := classes[..|classes| - 1];
      var last := classes[|classes| - 1];
      var prev := FileFailures(init);
      ThrowsInInitOrLast(classes);
      if prev.None? || Throws(last) then None
      else Some(prev.value + ClassFailures(last))
  }

  /** A class of the file throws exactly when one of all but the last does, or the last does. */
  lemma ThrowsInInitOrLast(classes: seq<seq<ClassMethod>>)
    requires |classes| > 0
    ensures var init := classes[..|classes| - 1];
            (exists k :: 0 <= k < |classes| && Throws(classes[k]))
            <==> (exists k :: 0 <= k < |init| && Throws(init[k])) || Throws(classes[|classes| - 1])
  {
    var init := classes[..|classes| - 1];
    assert forall k :: 0 <= k < |init| ==> init[k] == classes[k];
  }

  /** The failures `validate` adds for a class that does not throw. */
  function ClassFailures(methods: seq<ClassMethod>): (fs: seq<MethodFailure>)
    requires !Throws(methods)
    ensures |fs| <= |methods|
  {
    FailuresBefore(methods, |methods|)
  }

  /** The failure lists of classes none of which throws, one per class. */
  function ClassFailureLists(classes: seq<seq<ClassMethod>>): (lists: seq<seq<MethodFailure>>)
    requires forall k :: 0 <= k < |classes| ==> !Throws(classes[k])
    ensures |lists| == |classes|
    ensures forall k :: 0 <= k < |classes| ==> lists[k] == ClassFailures(classes[k])
  {
    seq(|classes|, k requires 0 <= k < |classes| => ClassFailures(classes[k]))
  }

  /** The lists one after the other. */
  function Concat<T>(lists: seq<seq<T>>): seq<T> {
    if |lists| == 0 then [] else Concat(lists[..|lists| - 1]) + lists[|lists| - 1]
  }

  /** An element of the concatenation is an element of one of the lists, and back. */
  lemma {:induction false} InConcat<T>(lists: seq<seq<T>>, x: T)
    ensures x in Concat(lists) <==> exists k :: 0 <= k < |lists| && x in lists[k]
    decreases |lists|
  {
    if |lists| > 0 {
      var init := lists[..|lists| - 1];
      InConcat(init, x);
      assert forall k :: 0 <= k < |init| ==> init[k] == lists[k];
      if exists k :: 0 <= k < |lists| && x in lists[k] {
        var k :| 0 <= k < |lists| && x in lists[k];
        if k < |init| {
          assert x in init[k];
        }
      }
    }
  }

  /**
   * When no class throws, the file's failures are those of its classes,
   * concatenated in visiting order.
   */
  lemma {:induction false} FileFailuresConcat(classes: seq<seq<ClassMethod>>)
    requires forall k :: 0 <= k < |classes| ==> !Throws(classes[k])
    ensures FileFailures(classes) == Some(Concat(ClassFailureLists(classes)))
    decreases |classes|
  {
    if |classes| > 0 {
      var init := classes[..|classes| - 1];
      assert forall k :: 0 <= k < |init| ==> init[k] == classes[k];
      FileFailuresConcat(init);
      var lists := ClassFailureLists(classes);
      assert lists[..|lists| - 1] == ClassFailureLists(init);
    }
  }

  /** When no class throws, a failure is reported exactly when one of the classes has it. */
  lemma FileFailuresAreClassFailures(classes: seq<seq<ClassMethod>>, f: MethodFailure)
    requires forall k :: 0 <= k < |classes| ==> !Throws(classes[k])
    ensures FileFailures(classes).Some?
    ensures f in FileFailures(classes).value <==> exists k :: 0 <= k < |classes| && f in ClassFailures(classes[k])
  {
    FileFailuresConcat(classes);
    var lists := ClassFailureLists(classes);
    InConcat(lists, f);
    assert forall k :: 0 <= k < |classes| ==> lists[k] == ClassFailures(classes[k]);
  }

  // ---------------------------------------------------------------- properties

  /** The first method is compared with itself, so it never counts as an overload. */
  lemma FirstMethodIsNoOverload(methods: seq<ClassMethod>)
    requires |methods| > 0
    ensures !IsOverload(methods, 0)
    ensures ExpectedNewlines(methods, 0) == 1 <==> methods[0].isFirstMember
  {
  }

  /** The fix adds exactly one line break and keeps the comment test as it was. */
  lemma FixAddsOneNewline(ws: string)
    ensures Strings.Count(FixNewline(ws) + ws, '\n') == Strings.Count(ws, '\n') + 1
    ensures HasComments(FixNewline(ws) + ws) <==> HasComments(ws)
  {
    var nl := FixNewline(ws);
    Strings.CountConcat(nl, ws, '\n');
    Strings.ContainsAfterPrefix(nl, ws, "//");
    Strings.ContainsAfterPrefix(nl, ws, "/**");
  }

  /** The method as it reads once the fix is applied: one more line break before it. */
  function Fixed(m: ClassMethod): ClassMethod {
    m.(leadingWhitespace := FixNewline(m.leadingWhitespace) + m.leadingWhitespace)
  }

  /** A method with too few line breaks passes once its fix is applied. */
  lemma FixRepairsTooFew(methods: seq<ClassMethod>, i: nat)
    requires i < |methods| && '\n' in methods[i].leadingWhitespace
    requires Strings.Count(methods[i].leadingWhitespace, '\n') < ExpectedNewlines(methods, i)
    ensures CheckMethod(methods, i).Fires?
    ensures CheckMethod(methods[i := Fixed(methods[i])], i) == Passes
  {
    FixAddsOneNewline(methods[i].leadingWhitespace);
    var fixed := methods[i := Fixed(methods[i])];
    assert ExpectedNewlines(fixed, i) == ExpectedNewlines(methods, i);
  }

  /**
   * The fix only ever inserts, so a method with too many line breaks and no
   * comment still fires after its fix is applied.
   */
  lemma TooManyKeepsFiring(methods: seq<ClassMethod>, i: nat)
    requires i < |methods|
    requires Strings.Count(methods[i].leadingWhitespace, '\n') > ExpectedNewlines(methods, i)
    requires !HasComments(methods[i].leadingWhitespace)
    ensures CheckMethod(methods, i).Fires?
    ensures CheckMethod(methods[i := Fixed(methods[i])], i).Fires?
  {
    FixAddsOneNewline(methods[i].leadingWhitespace);
    var fixed := methods[i := Fixed(methods[i])];
    assert ExpectedNewlines(fixed, i) == ExpectedNewlines(methods, i);
  }

  // A plain block comment (one opened by a slash and a single star) does not
  // excuse extra line breaks: whatever the comment says, a method with more
  // line breaks than it needs still draws a failure.
  lemma PlainBlockCommentStillFires(methods: seq<ClassMethod>, i: nat)
    requires i < |methods|
    requires Strings.Contains(methods[i].leadingWhitespace, "/*")
    requires !Strings.Contains(methods[i].leadingWhitespace, "//")
    requires !Strings.Contains(methods[i].leadingWhitespace, "/**")
    requires Strings.Count(methods[i].leadingWhitespace, '\n') > ExpectedNewlines(methods, i)
    ensures CheckMethod(methods, i).Fires?
  {
    assert !HasComments(methods[i].leadingWhitespace);
  }

  /** Three blank lines and a plain block comment before a method: a failure, whatever the method needs. */
  lemma BlockCommentSampleFires(methods: seq<ClassMethod>, i: nat)
    requires i < |methods| && methods[i].leadingWhitespace == BlockCommentSample
    ensures CheckMethod(methods, i).Fires?
  {
    SampleHasNoComments();
    SampleBreaks();
  }

  /**
   * The fix offset counts UTF-16 code units: an emoji in the comment before a
   * method moves the insertion point one further back than its character count.
   */
  lemma EmojiCommentFixOffset(methods: seq<ClassMethod>)
    requires |methods| == 2 && !methods[1].isFirstMember && methods[1].name != methods[0].name
    requires methods[1].leadingWhitespace == "/* \U{1F600} */\n"
    ensures |methods[1].leadingWhitespace| == 8
    ensures CheckMethod(methods, 1).Fires?
    ensures CheckMethod(methods, 1).failure.fix.at == methods[1].nameStart - 9
  {
    var ws := methods[1].leadingWhitespace;
    assert ws == "/* " + ['\U{1F600}'] + " */\n";
    Strings.OneSupplementaryChar("/* ", '\U{1F600}', " */\n");
    var pre := "/* " + ['\U{1F600}'] + " */";
    assert ws == pre + "\n";
    assert '\n' !in pre;
    Strings.CountConcat(pre, "\n", '\n');
    assert Strings.Count("\n", '\n') == 1 by { assert "\n"[1..] == ""; }
  }

  const BlockCommentSample := "\n\n\n/* a */\n"

  lemma SampleHasNoComments()
    ensures !HasComments(BlockCommentSample)
  {
    var ws := BlockCommentSample;
    assert forall j :: 0 <= j < |ws| && ws[j] == '/' ==> j == 3 || j == 9;
    NoPairNoOccurrence(ws, "//");
    assert ws[5] == ' ' && ws[10] == '\n';
    NoTripleNoOccurrence(ws, "/**");
  }

  /** A pattern whose first three characters never stand in a row does not occur. */
  lemma NoTripleNoOccurrence(s: string, pat: string)
    requires |pat| >= 3
    requires forall j :: 0 <= j < |s| - 2 ==> !(s[j] == pat[0] && s[j + 1] == pat[1] && s[j + 2] == pat[2])
    ensures !Strings.Contains(s, pat)
  {
    forall j ensures !Strings.OccursAt(s, pat, j) {
      if 0 <= j && j + |pat| <= |s| {
        assert s[j..j + |pat|][0] == s[j] && s[j..j + |pat|][1] == s[j + 1] && s[j..j + |pat|][2] == s[j + 2];
      }
    }
  }

  /** A pattern whose first two characters never stand side by side does not occur. */
  lemma NoPairNoOccurrence(s: string, pat: string)
    requires |pat| >= 2
    requires forall j :: 0 <= j < |s| - 1 ==> !(s[j] == pat[0] && s[j + 1] == pat[1])
    ensures !Strings.Contains(s, pat)
  {
    forall j ensures !Strings.OccursAt(s, pat, j) {
      if 0 <= j && j + |pat| <= |s| {
        assert s[j..j + |pat|][0] == s[j] && s[j..j + |pat|][1] == s[j + 1];
      }
    }
  }

  lemma SampleBreaks()
    ensures Strings.Count(BlockCommentSample, '\n') >= 3
  {
    LeadingBreaks(BlockCommentSample);
  }

  /** Three line breaks at the head of a text count at least three. */
  lemma LeadingBreaks(s: string)
    requires |s| >= 3 && s[0] == '\n' && s[1] == '\n' && s[2] == '\n'
    ensures Strings.Count(s, '\n') >= 3
  {
    assert s[1..][0] == s[1] && s[1..][1..] == s[2..] && s[2..][0] == s[2];
    assert Strings.Count(s[2..], '\n') >= 1;
  }
}

=== FILE: import_order.dfy ===
/**
 * The ordering step of the import-order rule over sort keys: the comparator
 * (side-effect imports compare equal to one another, everything else is
 * ordered by plain string comparison) and a stable insertion sort under it.
 *
 * The comparator is not a consistent comparator in general, and ECMAScript
 * leaves the result of `Array.prototype.sort` implementation-defined in that
 * case. The facts below therefore come in two kinds: those that hold for the
 * modelled sort on every input (permutation, side-effect imports keep their
 * relative order, an already sorted list is left alone), and those that hold
 * whenever the comparator is consistent on the keys (the result is sorted, and
 * it is the only stable sort of the keys, so any conforming engine agrees).
 */
module ImportOrder {
  import LexOrder

  /**
   * `(left, right) => …` of the rule: 0 when both keys belong to side-effect
   * imports, otherwise 1, -1 or 0 by string comparison. `se` is the set of keys
   * whose import is a side-effect import.
   */
  function Compare(se: set<string>, left: string, right: string): (r: int)
    ensures -1 <= r <= 1
    ensures r == 0 <==> (left in se && right in se) || left == right
    ensures r < 0 <==> !(left in se && right in se) && LexOrder.Less(left, right)
  {
    LexOrder.Trichotomy(left, right);
    LexOrder.Asymmetric(left, right);
    LexOrder.Asymmetric(right, left);
    LexOrder.Irreflexive(left);
    if left in se && right in se then 0
    else if LexOrder.Less(right, left) then 1
    else if LexOrder.Less(left, right) then -1
    else 0
  }

  predicate Le(se: set<string>, a: string, b: string) {
    Compare(se, a, b) <= 0
  }

  /** Every earlier key compares at most equal to every later one. */
  predicate Sorted(se: set<string>, s: seq<string>) {
    forall i, j :: 0 <= i < j < |s| ==> Le(se, s[i], s[j])
  }

  /** The comparator is a consistent comparator on the keys of `s` (its `<=` is transitive there). */
  predicate Consistent(se: set<string>, s: seq<string>) {
    forall a, b, c :: a in s && b in s && c in s && Le(se, a, b) && Le(se, b, c) ==> Le(se, a, c)
  }

  /** The side-effect keys of `s`, in order. */
  function SideEffectsOf(se: set<string>, s: seq<string>): seq<string> {
    if |s| == 0 then []
    else SideEffectsOf(se, s[..|s| - 1]) + (if s[|s| - 1] in se then [s[|s| - 1]] else [])
  }

  lemma SideEffectsOfSnoc(se: set<string>, s: seq<string>, x: string)
    ensures SideEffectsOf(se, s + [x]) == SideEffectsOf(se, s) + (if x in se then [x] else [])
  {
    assert (s + [x])[..|s|] == s;
  }

  /**
   * One step of insertion sort: `x` moves left past every key the comparator
   * puts strictly after it, and stops at the first one it does not.
   */
  function Insert(se: set<string>, sorted: seq<string>, x: string): (r: seq<string>)
    ensures multiset(r) == multiset(sorted) + multiset{x}
  {
    if |sorted| == 0 then [x]
    else
      var last := sorted[|sorted| - 1];
      assert sorted == sorted[..|sorted| - 1] + [last];
      if Compare(se, last, x) > 0 then Insert(se, sorted[..|sorted| - 1], x) + [last]
      else sorted + [x]
  }

  /** `unsortedLines.slice().sort(comparator)`, as a stable insertion sort. */
  function Sort(se: set<string>, s: seq<string>): (r: seq<string>)
    ensures multiset(r) == multiset(s)
  {
    if |s| == 0 then []
    else
      assert s == s[..|s| - 1] + [s[|s| - 1]];
      Insert(se, Sort(se, s[..|s| - 1]), s[|s| - 1])
  }

  // ---------------------------------------------------------------- side-effect imports keep their order

  /** Inserting never moves a key past a side-effect key when it is a side-effect key itself. */
  lemma {:induction false} InsertKeepsSideEffectOrder(se: set<string>, sorted: seq<string>, x: string)
    ensures SideEffectsOf(se, Insert(se, sorted, x)) == SideEffectsOf(se, sorted) + (if x in se then [x] else [])
    decreases |sorted|
  {
    if |sorted| == 0 {
      SideEffectsOfSnoc(se, [], x);
      assert [] + [x] == [x];
    } else {
      var init, last := sorted[..|sorted| - 1], sorted[|sorted| - 1];
      assert sorted == init + [last];
      SideEffectsOfSnoc(se, init, last);
      if Compare(se, last, x) > 0 {
        InsertBefore(se, sorted, x);
        InsertKeepsSideEffectOrder(se, init, x);
        SideEffectsOfSnoc(se, Insert(se, init, x), last);
      } else {
        InsertAfter(se, sorted, x);
        SideEffectsOfSnoc(se, sorted, x);
      }
    }
  }

  /** The sort never reorders two side-effect imports. */
  lemma {:induction false} SortKeepsSideEffectOrder(se: set<string>, s: seq<string>)
    ensures SideEffectsOf(se, Sort(se, s)) == SideEffectsOf(se, s)
    decreases |s|
  {
    if |s| > 0 {
      SortKeepsSideEffectOrder(se, s[..|s| - 1]);
      InsertKeepsSideEffectOrder(se, Sort(se, s[..|s| - 1]), s[|s| - 1]);
    }
  }

  // ---------------------------------------------------------------- already sorted input

  /** An input that is already in order comes back unchanged. */
  lemma {:induction false} SortOfSorted(se: set<string>, s: seq<string>)
    requires Sorted(se, s)
    ensures Sort(se, s) == s
    decreases |s|
  {
    if |s| > 0 {
      var init, x := s[..|s| - 1], s[|s| - 1];
      assert Sort(se, init) == init by {
        SortedInit(se, s);
        SortOfSorted(se, init);
      }
      assert Insert(se, init, x) == s by {
        if |init| > 0 {
          assert Le(se, init[|init| - 1], x) by { assert init[|init| - 1] == s[|s| - 2]; }
          InsertAfter(se, init, x);
        }
        assert init + [x] == s;
      }
      assert Sort(se, s) == Insert(se, Sort(se, init), x);
    }
  }

  lemma SortedInit(se: set<string>, s: seq<string>)
    requires |s| > 0 && Sorted(se, s)
    ensures Sorted(se, s[..|s| - 1])
  {
  }

  // ---------------------------------------------------------------- sortedness under a consistent comparator

  lemma SortedSnoc(se: set<string>, r: seq<string>, e: string)
    requires Sorted(se, r)
    requires forall y :: y in r ==> Le(se, y, e)
    ensures Sorted(se, r + [e])
  {
    forall i, j | 0 <= i < j < |r + [e]|
      ensures Le(se, (r + [e])[i], (r + [e])[j])
    {
      if j == |r| {
        assert (r + [e])[i] == r[i] && r[i] in r;
      } else {
        assert (r + [e])[i] == r[i] && (r + [e])[j] == r[j];
      }
    }
  }

  lemma {:induction false} InsertSorted(se: set<string>, sorted: seq<string>, x: string)
    requires Sorted(se, sorted)
    requires Consistent(se, sorted + [x])
    ensures Sorted(se, Insert(se, sorted, x))
    decreases |sorted|
  {
    if |sorted| > 0 {
      var init, last := sorted[..|sorted| - 1], sorted[|sorted| - 1];
      if Compare(se, last, x) > 0 {
        assert Sorted(se, init);
        ConsistentDropLast(se, sorted, x);
        InsertSorted(se, init, x);
        var r := Insert(se, init, x);
        InsertedBelowLast(se, sorted, x, r);
        SortedSnoc(se, r, last);
        InsertBefore(se, sorted, x);
      } else {
        SortedBelowAppended(se, sorted, x);
        SortedSnoc(se, sorted, x);
        InsertAfter(se, sorted, x);
      }
    }
  }

  /** Consistency on `sorted + [x]` carries over to the same list without its last key. */
  lemma ConsistentDropLast(se: set<string>, sorted: seq<string>, x: string)
    requires |sorted| > 0 && Consistent(se, sorted + [x])
    ensures Consistent(se, sorted[..|sorted| - 1] + [x])
  {
    var init := sorted[..|sorted| - 1];
    forall y | y in init + [x] ensures y in sorted + [x] {
      if y in init {
        var k :| 0 <= k < |init| && init[k] == y;
        assert sorted[k] == y;
      }
    }
  }

  /** When `x` moves left of the last sorted key, everything inserted so far stays at most that key. */
  lemma InsertedBelowLast(se: set<string>, sorted: seq<string>, x: string, r: seq<string>)
    requires |sorted| > 0 && Sorted(se, sorted)
    requires Compare(se, sorted[|sorted| - 1], x) > 0
    requires multiset(r) == multiset(sorted[..|sorted| - 1]) + multiset{x}
    ensures forall y :: y in r ==> Le(se, y, sorted[|sorted| - 1])
  {
    var init, last := sorted[..|sorted| - 1], sorted[|sorted| - 1];
    forall y | y in r ensures Le(se, y, last) {
      assert y in multiset(r);
      if y != x {
        assert y in multiset(init);
        var k :| 0 <= k < |init| && init[k] == y;
        assert sorted[k] == y;
      }
    }
  }

  /** When `x` stays at the end, every sorted key is at most `x`. */
  lemma SortedBelowAppended(se: set<string>, sorted: seq<string>, x: string)
    requires |sorted| > 0 && Sorted(se, sorted) && Consistent(se, sorted + [x])
    requires Compare(se, sorted[|sorted| - 1], x) <= 0
    ensures forall y :: y in sorted ==> Le(se, y, x)
  {
    var last := sorted[|sorted| - 1];
    forall y | y in sorted ensures Le(se, y, x) {
      var k :| 0 <= k < |sorted| && sorted[k] == y;
      if k < |sorted| - 1 {
        assert Le(se, sorted[k], last);
        assert y in sorted + [x] && last in sorted + [x] && x in sorted + [x];
      }
    }
  }

  /** When the comparator is consistent on the keys, the result is in order. */
  lemma {:induction false} SortSorted(se: set<string>, s: seq<string>)
    requires Consistent(se, s)
    ensures Sorted(se, Sort(se, s))
    decreases |s|
  {
    if |s| > 0 {
      var init, x := s[..|s| - 1], s[|s| - 1];
      assert s == init + [x];
      assert Consistent(se, init);
      SortSorted(se, init);
      var r := Sort(se, init);
      assert Consistent(se, r + [x]) by {
        forall y | y in r + [x] ensures y in s {
          if y in r {
            assert y in multiset(init);
          }
        }
      }
      InsertSorted(se, r, x);
    }
  }

  // ---------------------------------------------------------------- uniqueness of the stable sort

  lemma SortedLastIsGreatest(se: set<string>, a: seq<string>, y: string)
    requires Sorted(se, a) && y in a
    ensures Le(se, y, a[|a| - 1])
  {
    var k :| 0 <= k < |a| && a[k] == y;
    if k == |a| - 1 {
      assert Compare(se, y, y) == 0;
    }
  }

  lemma MutuallyLeEqual(se: set<string>, x: string, y: string)
    requires Le(se, x, y) && Le(se, y, x) && !(x in se && y in se)
    ensures x == y
  {
    LexOrder.Asymmetric(x, y);
  }

  lemma LastSideEffect(se: set<string>, s: seq<string>)
    requires |s| > 0 && s[|s| - 1] in se
    ensures |SideEffectsOf(se, s)| > 0 && SideEffectsOf(se, s)[|SideEffectsOf(se, s)| - 1] == s[|s| - 1]
  {
  }

  /** The last keys of two such orderings agree. */
  lemma StableSortSameLast(se: set<string>, a: seq<string>, b: seq<string>)
    requires |a| > 0 && multiset(a) == multiset(b)
    requires Sorted(se, a) && Sorted(se, b)
    requires SideEffectsOf(se, a) == SideEffectsOf(se, b)
    ensures |b| > 0 && a[|a| - 1] == b[|b| - 1]
  {
    assert |a| == |multiset(a)| == |b|;
    var la, lb := a[|a| - 1], b[|b| - 1];
    assert lb in multiset(a) && la in multiset(b);
    SortedLastIsGreatest(se, a, lb);
    SortedLastIsGreatest(se, b, la);
    if la in se && lb in se {
      LastSideEffect(se, a);
      LastSideEffect(se, b);
    } else {
      MutuallyLeEqual(se, la, lb);
    }
  }

  /**
   * Two orderings of the same keys that are both sorted and keep the side-effect
   * keys in the same order are identical.
   */
  lemma {:induction false} StableSortUnique(se: set<string>, a: seq<string>, b: seq<string>)
    requires multiset(a) == multiset(b)
    requires Sorted(se, a) && Sorted(se, b)
    requires SideEffectsOf(se, a) == SideEffectsOf(se, b)
    ensures a == b
    decreases |a|
  {
    assert |a| == |multiset(a)| == |b|;
    if |a| > 0 {
      StableSortStep(se, a, b);
      StableSortUnique(se, a[..|a| - 1], b[..|b| - 1]);
      assert a == a[..|a| - 1] + [a[|a| - 1]] && b == b[..|b| - 1] + [b[|b| - 1]];
    }
  }

  /** Dropping the (common) last key keeps both orderings in the situation of `StableSortUnique`. */
  lemma StableSortStep(se: set<string>, a: seq<string>, b: seq<string>)
    requires |a| > 0 && multiset(a) == multiset(b)
    requires Sorted(se, a) && Sorted(se, b)
    requires SideEffectsOf(se, a) == SideEffectsOf(se, b)
    ensures |b| > 0 && a[|a| - 1] == b[|b| - 1]
    ensures multiset(a[..|a| - 1]) == multiset(b[..|b| - 1])
    ensures Sorted(se, a[..|a| - 1]) && Sorted(se, b[..|b| - 1])
    ensures SideEffectsOf(se, a[..|a| - 1]) == SideEffectsOf(se, b[..|b| - 1])
  {
    StableSortSameLast(se, a, b);
    DropSameLast(se, a, b);
    SortedPrefix(se, a);
    SortedPrefix(se, b);
  }

  lemma DropSameLast(se: set<string>, a: seq<string>, b: seq<string>)
    requires |a| > 0 && |b| > 0 && a[|a| - 1] == b[|b| - 1]
    requires multiset(a) == multiset(b)
    requires SideEffectsOf(se, a) == SideEffectsOf(se, b)
    ensures multiset(a[..|a| - 1]) == multiset(b[..|b| - 1])
    ensures SideEffectsOf(se, a[..|a| - 1]) == SideEffectsOf(se, b[..|b| - 1])
  {
    DropSameLastMultiset(a, b);
    DropSameLastSideEffects(se, a, b);
  }

  lemma DropSameLastMultiset(a: seq<string>, b: seq<string>)
    requires |a| > 0 && |b| > 0 && a[|a| - 1] == b[|b| - 1]
    requires multiset(a) == multiset(b)
    ensures multiset(a[..|a| - 1]) == multiset(b[..|b| - 1])
  {
    var l := a[|a| - 1];
    assert a == a[..|a| - 1] + [l] && b == b[..|b| - 1] + [l];
    assert multiset(a[..|a| - 1]) == multiset(a) - multiset{l};
  }

  lemma DropSameLastSideEffects(se: set<string>, a: seq<string>, b: seq<string>)
    requires |a| > 0 && |b| > 0 && a[|a| - 1] == b[|b| - 1]
    requires SideEffectsOf(se, a) == SideEffectsOf(se, b)
    ensures SideEffectsOf(se, a[..|a| - 1]) == SideEffectsOf(se, b[..|b| - 1])
  {
    var l := a[|a| - 1];
    var sa, sb := SideEffectsOf(se, a[..|a| - 1]), SideEffectsOf(se, b[..|b| - 1]);
    var tail := if l in se then [l] else [];
    assert sa + tail == sb + tail;
    assert sa == (sa + tail)[..|sa|];
    assert sb == (sb + tail)[..|sb|];
  }

  lemma SortedPrefix(se: set<string>, a: seq<string>)
    requires |a| > 0 && Sorted(se, a)
    ensures Sorted(se, a[..|a| - 1])
  {
  }

  /**
   * With a consistent comparator the modelled sort is THE stable sort: any
   * sorted permutation of the keys that keeps side-effect keys in source order
   * is exactly its result.
   */
  lemma SortIsTheStableSort(se: set<string>, s: seq<string>, t: seq<string>)
    requires Consistent(se, s)
    requires multiset(t) == multiset(s) && Sorted(se, t)
    requires SideEffectsOf(se, t) == SideEffectsOf(se, s)
    ensures t == Sort(se, s)
  {
    SortSorted(se, s);
    SortKeepsSideEffectOrder(se, s);
    StableSortUnique(se, t, Sort(se, s));
  }

  // ---------------------------------------------------------------- when the comparator is consistent

  /** No key of a non-side-effect import lies strictly between two side-effect keys. */
  predicate Separated(se: set<string>, s: seq<string>) {
    forall a, b, c :: a in s && b in s && c in s && a in se && c in se && b !in se ==>
      !(LexOrder.Less(a, b) && LexOrder.Less(b, c))
  }

  /**
   * The comparator is consistent exactly when the side-effect keys are not
   * split by another key; in particular when a group holds only side-effect
   * imports or none.
   */
  lemma SeparatedIsConsistent(se: set<string>, s: seq<string>)
    requires Separated(se, s)
    ensures Consistent(se, s)
  {
    forall x, y, z | x in s && y in s && z in s && Le(se, x, y) && Le(se, y, z)
      ensures Le(se, x, z)
    {
      LexOrder.Trichotomy(x, z);
      if !(x in se && z in se) && LexOrder.Less(z, x) {
        if x in se && y in se {
          // z < x with y <= z: z would sit between y and x.
          LexOrder.Trichotomy(y, z);
        } else if y in se && z in se {
          LexOrder.Trichotomy(x, y);
        } else {
          LexOrder.Trichotomy(x, y);
          LexOrder.Trichotomy(y, z);
          if LexOrder.Less(x, y) && LexOrder.Less(y, z) {
            LexOrder.Transitive(x, y, z);
            LexOrder.Asymmetric(x, z);
          } else if LexOrder.Less(x, y) {
            LexOrder.Asymmetric(x, z);
          } else if LexOrder.Less(y, z) {
            LexOrder.Asymmetric(x, z);
          } else {
            LexOrder.Irreflexive(x);
          }
        }
      }
    }
  }

  // ---------------------------------------------------------------- a side-effect key among out-of-order keys

  /**
   * Keys `[a, b, c]` where only `b` belongs to a side-effect import and
   * `b < c < a`: the sort moves `b` to the front and `a` to the back.
   */
  lemma SortAroundSideEffect(se: set<string>, a: string, b: string, c: string)
    requires b in se && a !in se && c !in se
    requires LexOrder.Less(b, c) && LexOrder.Less(c, a)
    ensures Sort(se, [a, b, c]) == [b, c, a]
  {
    LexOrder.Transitive(b, c, a);
    SortTwo(se, a, b);
    SortThree(se, a, b, c);
  }

  /** Two keys that compare out of order swap places. */
  lemma SortTwo(se: set<string>, a: string, b: string)
    requires Compare(se, a, b) > 0
    ensures Sort(se, [a, b]) == [b, a]
  {
    SortOne(se, a);
    SortSnoc(se, [a], b);
    assert [a] + [b] == [a, b];
    InsertFirst(se, a, b);
  }

  lemma SortOne(se: set<string>, a: string)
    ensures Sort(se, [a]) == [a]
  {
    SortSnoc(se, [], a);
    assert [] + [a] == [a];
  }

  lemma InsertFirst(se: set<string>, a: string, b: string)
    requires Compare(se, a, b) > 0
    ensures Insert(se, [a], b) == [b, a]
  {
    var s := [a];
    InsertBefore(se, s, b);
    assert s[..0] == [];
  }

  /** A third key that belongs between the two sorted ones goes in the middle. */
  lemma SortThree(se: set<string>, a: string, b: string, c: string)
    requires Sort(se, [a, b]) == [b, a]
    requires Compare(se, a, c) > 0 && Compare(se, b, c) <= 0
    ensures Sort(se, [a, b, c]) == [b, c, a]
  {
    SortSnoc(se, [a, b], c);
    assert [a, b] + [c] == [a, b, c];
    InsertMiddle(se, b, a, c);
  }

  lemma InsertMiddle(se: set<string>, b: string, a: string, c: string)
    requires Compare(se, a, c) > 0 && Compare(se, b, c) <= 0
    ensures Insert(se, [b, a], c) == [b, c, a]
  {
    var ba := [b, a];
    InsertBefore(se, ba, c);
    assert ba[..1] == [b];
    InsertAfter(se, [b], c);
  }

  lemma SortSnoc(se: set<string>, s: seq<string>, x: string)
    ensures Sort(se, s + [x]) == Insert(se, Sort(se, s), x)
  {
    assert (s + [x])[..|s|] == s;
  }

  /** A key that compares below the last sorted key goes in before it. */
  lemma InsertBefore(se: set<string>, sorted: seq<string>, x: string)
    requires |sorted| > 0 && Compare(se, sorted[|sorted| - 1], x) > 0
    ensures Insert(se, sorted, x) == Insert(se, sorted[..|sorted| - 1], x) + [sorted[|sorted| - 1]]
  {
  }

  /** A key that does not compare below the last sorted key goes at the end. */
  lemma InsertAfter(se: set<string>, sorted: seq<string>, x: string)
    requires |sorted| > 0 && Compare(se, sorted[|sorted| - 1], x) <= 0
    ensures Insert(se, sorted, x) == sorted + [x]
  {
  }

}

=== FILE: lex_order.dfy ===
/**
 * JavaScript's `<` on strings: lexicographic comparison, character by
 * character, a proper prefix coming first.
 */
module LexOrder {

  predicate Less(a: string, b: string)
    decreases |a|
  {
    if |a| == 0 then |b| > 0
    else if |b| == 0 then false
    else if a[0] != b[0] then a[0] < b[0]
    else Less(a[1..], b[1..])
  }

  lemma {:induction false} Irreflexive(a: string)
    ensures !Less(a, a)
    decreases |a|
  {
    if |a| > 0 {
      Irreflexive(a[1..]);
    }
  }

  lemma {:induction false} Asymmetric(a: string, b: string)
    ensures Less(a, b) ==> !Less(b, a)
    decreases |a|
  {
    if |a| > 0 && |b| > 0 && a[0] == b[0] {
      Asymmetric(a[1..], b[1..]);
    }
  }

  lemma {:induction false} Transitive(a: string, b: string, c: string)
    requires Less(a, b) && Less(b, c)
    ensures Less(a, c)
    decreases |a|
  {
    if |a| > 0 && a[0] == b[0] && b[0] == c[0] {
      Transitive(a[1..], b[1..], c[1..]);
    }
  }

  /** Any two strings are equal or ordered one way. */
  lemma {:induction false} Trichotomy(a: string, b: string)
    ensures a == b || Less(a, b) || Less(b, a)
    decreases |a|
  {
    if |a| > 0 && |b| > 0 && a[0] == b[0] {
      Trichotomy(a[1..], b[1..]);
      if a[1..] == b[1..] {
        assert a == [a[0]] + a[1..] && b == [b[0]] + b[1..];
      }
    }
  }
}

=== FILE: no_braces_arrow.dfy ===
/**
 * The brace rule for arrow functions
 * (`rules/noBracesForSingleLineArrowFunctionsRule.ts`): an arrow function
 * whose body is a block holding one statement and written on one line is
 * reported, and the fix replaces the block with the statement as an
 * expression. The parser's answers about the body are the fields of
 * `ArrowBody`.
 */
module NoBracesArrow {
  import opened Wrappers
  import Strings

  /**
   * The one statement of a block body as `getFixedText` sees it. For a return
   * statement, `returnsObjectLiteral` says whether the child after the
   * `return` keyword is an object literal; for a bare `return;` that child is
   * the semicolon, so it is false.
   */
  datatype Statement =
    | ReturnStatement(returnsObjectLiteral: bool)
    | OtherStatement

  /**
   * The body of an arrow function. A block carries its statements, its full
   * text (leading trivia included), its start and width without trivia, and
   * the text of its statement list, the child between the two braces.
   */
  datatype ArrowBody =
    | ExpressionBody
    | Block(statements: seq<Statement>, fullText: string, start: int, width: int, listText: string)

  datatype Replacement = Replacement(start: int, width: int, text: string)

  datatype ArrowFailure = ArrowFailure(start: int, width: int, message: string, fix: Replacement)

  const Message := "single-line arrow functions should not be wrapped in braces"

  const ReturnKeyword := "return"

  predicate IsBraced(b: ArrowBody) {
    b.Block?
  }

  predicate HasOneStatement(b: ArrowBody)
    requires b.Block?
  {
    |b.statements| == 1
  }

  /** The full text of the block, leading trivia included, holds no line feed. */
  predicate IsOneLine(b: ArrowBody)
    requires b.Block?
  {
    '\n' !in b.fullText
  }

  /** `text.trim().replace(/;$/, '')`: trims, then drops one final semicolon if there is one. */
  function StripSemicolon(text: string): (r: string)
    ensures var t := Strings.Trim(text);
            if |t| > 0 && t[|t| - 1] == ';' then r + ";" == t else r == t
  {
    var t := Strings.Trim(text);
    if |t| > 0 && t[|t| - 1] == ';' then t[..|t| - 1] else t
  }

  function Parenthesized(s: string): (r: string)
    ensures |r| == |s| + 2 && r[0] == '(' && r[|r| - 1] == ')' && r[1..|r| - 1] == s
  {
    "(" + s + ")"
  }

  /**
   * `getFixedText`: the statement list's text without its final semicolon;
   * for a return statement the first `return` is deleted and the rest
   * trimmed, and a returned object literal is put in parentheses.
   */
  function FixedText(listText: string, first: Option<Statement>): (r: string)
    ensures first.None? || first.value.OtherStatement? ==> r == StripSemicolon(listText)
  {
    var result := StripSemicolon(listText);
    match first
    case Some(ReturnStatement(objectLiteral)) =>
      var expression := Strings.Trim(Strings.ReplaceFirst(result, ReturnKeyword, ""));
      if objectLiteral then Parenthesized(expression) else expression
    case _ => result
  }

  /**
   * `visitArrowFunction`: the failure, if any, for one arrow function body.
   * The failure and its replacement cover the same span, the body's.
   */
  function Check(b: ArrowBody): (r: Option<ArrowFailure>)
    ensures r.Some? <==> b.Block? && |b.statements| == 1 && '\n' !in b.fullText
    ensures r.Some? ==>
              && r.value.start == b.start && r.value.width == b.width
              && r.value.fix.start == b.start && r.value.fix.width == b.width
              && r.value.message == Message
              && r.value.fix.text == FixedText(b.listText, Some(b.statements[0]))
  {
    if IsBraced(b) && HasOneStatement(b) && IsOneLine(b) then
      var fix := Replacement(b.start, b.width, FixedText(b.listText, Some(b.statements[0])));
      Some(ArrowFailure(b.start, b.width, Message, fix))
    else None
  }

  // ---------------------------------------------------------------- properties

  /** Stripping the semicolon keeps only characters of the text. */
  lemma StripKeepsOnly(s: string, c: char)
    ensures c in StripSemicolon(s) ==> c in s
  {
    Strings.TrimKeepsOnly(s, c);
    var t := Strings.Trim(s);
    if c in StripSemicolon(s) {
      var p :| 0 <= p < |StripSemicolon(s)| && StripSemicolon(s)[p] == c;
      assert t[p] == c;
    }
  }

  /**
   * The fix text is made of characters of the statement list's text, plus
   * the two parentheses around a returned object literal.
   */
  lemma FixAddsOnlyParentheses(listText: string, first: Option<Statement>, c: char)
    ensures c in FixedText(listText, first) ==> c in listText || c == '(' || c == ')'
  {
    var result := StripSemicolon(listText);
    StripKeepsOnly(listText, c);
    if first.Some? && first.value.ReturnStatement? {
      var replaced := Strings.ReplaceFirst(result, ReturnKeyword, "");
      Strings.ReplaceFirstAddsOnlyReplacement(result, ReturnKeyword, "", c);
      Strings.TrimKeepsOnly(replaced, c);
      ParenthesizedAddsOnly(Strings.Trim(replaced), c);
    }
  }

  lemma ParenthesizedAddsOnly(s: string, c: char)
    ensures c in Parenthesized(s) ==> c in s || c == '(' || c == ')'
  {
    var r := Parenthesized(s);
    if c in r {
      var p :| 0 <= p < |r| && r[p] == c;
      if 0 < p < |s| + 1 {
        assert r[1..|r| - 1][p - 1] == c;
      }
    }
  }

  /** A fix taken from a one-line statement list is itself on one line. */
  lemma FixIsOneLine(listText: string, first: Option<Statement>)
    requires '\n' !in listText
    ensures '\n' !in FixedText(listText, first)
  {
    FixAddsOnlyParentheses(listText, first, '\n');
  }

  /**
   * For a return statement, whose text begins with the keyword, the fix is
   * what follows the keyword with the final semicolon and the surrounding
   * white space removed, in parentheses for an object literal.
   */
  lemma ReturnFix(listText: string, objectLiteral: bool)
    requires var r := StripSemicolon(listText); |r| >= 6 && r[..6] == ReturnKeyword
    ensures var expression := Strings.Trim(StripSemicolon(listText)[6..]);
            FixedText(listText, Some(ReturnStatement(objectLiteral)))
              == if objectLiteral then Parenthesized(expression) else expression
  {
    var r := StripSemicolon(listText);
    Strings.ReplaceFirstAtStart(r, ReturnKeyword, "");
    assert "" + r[6..] == r[6..];
  }

  /** A statement with no white space at either end loses exactly its final semicolon. */
  lemma StripOfPlain(body: string)
    requires |body| > 0 && !Strings.IsWhitespace(body[0]) && !Strings.IsWhitespace(body[|body| - 1])
    ensures StripSemicolon(body + ";") == body
  {
    var t := body + ";";
    assert t[0] == body[0] && t[|t| - 1] == ';';
    Strings.TrimOfTrimmed(t);
    assert t[..|t| - 1] == body;
  }

  /** Only the last of several semicolons is removed. */
  lemma OneSemicolonRemoved(s: string)
    requires |s| > 0 && !Strings.IsWhitespace(s[0])
    ensures StripSemicolon(s + ";;") == s + ";"
  {
    var t := s + ";;";
    assert t[0] == s[0] && t[|t| - 1] == ';';
    Strings.TrimOfTrimmed(t);
    assert t[..|t| - 1] == s + ";";
  }

  /**
   * White space before the final semicolon survives the strip, so the fix for
   * a statement other than a return keeps it.
   */
  lemma SpaceBeforeSemicolonKept(s: string)
    requires |s| > 0 && !Strings.IsWhitespace(s[0])
    ensures FixedText(s + " ;", Some(OtherStatement)) == s + " "
  {
    var t := s + " ;";
    assert t[0] == s[0] && t[|t| - 1] == ';';
    Strings.TrimOfTrimmed(t);
    assert t[..|t| - 1] == s + " ";
  }

  /**
   * The fix for `{ return e; }` is `e`, or `(e)` when `e` is an object literal
   * such as `{ a: 1 }`.
   */
  lemma ReturnExpressionFix(e: string, objectLiteral: bool)
    requires |e| > 0 && !Strings.IsWhitespace(e[0]) && !Strings.IsWhitespace(e[|e| - 1])
    ensures FixedText(ReturnKeyword + (" " + e) + ";", Some(ReturnStatement(objectLiteral)))
              == if objectLiteral then Parenthesized(e) else e
  {
    var rest := " " + e;
    var body := ReturnKeyword + rest;
    assert |ReturnKeyword| == 6 && body[..6] == ReturnKeyword && body[6..] == rest;
    assert body[0] == 'r' && body[|body| - 1] == rest[|rest| - 1] == e[|e| - 1];
    StripOfPlain(body);
    ReturnFix(body + ";", objectLiteral);
    Strings.TrimOfTrimmed(e);
    TrimDropsLeadingSpace(e);
  }

  /**
   * The fix for a bare `return;` (or `return`, with any white space around)
   * is empty: the keyword is all there is.
   */
  lemma BareReturnFix(text: string)
    requires StripSemicolon(text) == ReturnKeyword
    ensures FixedText(text, Some(ReturnStatement(false))) == ""
  {
    assert ReturnKeyword[..6] == ReturnKeyword && ReturnKeyword[6..] == "";
    ReturnFix(text, false);
  }

  /** One leading space makes no difference to `trim`. */
  lemma TrimDropsLeadingSpace(s: string)
    ensures Strings.Trim(" " + s) == Strings.Trim(s)
  {
    assert (" " + s)[1..] == s;
  }
}

=== FILE: sort_imports.dfy ===
/**
 * The import-order rule (`rules/sortImportsRule.ts`): top-level statements are
 * split into maximal runs of imports; in each run the sort keys are sorted
 * and compared with the source order, and the first out-of-place import that
 * is not a side-effect import yields one failure with a whole-run fix.
 *
 * Parser queries are fields of `Statement`; the newline style the library
 * `detect-newline` finds in the file is the parameter `newline`.
 */
module SortImports {
  import opened Wrappers
  import Strings
  import LexOrder
  import ImportOrder

  // ---------------------------------------------------------------- data model

  /** The node kinds the rule tells apart among top-level statements. */
  datatype StatementKind =
    | ImportDeclaration(importClause: Option<string>, moduleSpecifier: string)
    | ImportEqualsDeclaration(name: string)
    | OtherStatement

  /** A stretch of the file's text, as offsets `start..end`. */
  datatype Span = Span(start: int, end: int)

  /** A stretch of the statement list, as indices `start..end`. */
  datatype IndexRange = IndexRange(start: int, end: int)

  /**
   * A top-level statement: `text` is `getText` (no leading trivia), `fullText`
   * is `getFullText`, `start`/`end` are `getStart`/`getEnd`, and `firstToken` is
   * the span of `getFirstToken()`. Clause, specifier and name texts live in `kind`.
   */
  datatype Statement = Statement(
    kind: StatementKind,
    text: string,
    fullText: string,
    start: int,
    end: int,
    firstToken: Span)

  datatype Options = Options(whitespaceInsensitive: bool)

  /** What `detect-newline` reports for the file. */
  datatype Newline = LF | CRLF {
    function Text(): string {
      if LF? then "\n" else "\r\n"
    }
  }

  /** `Lint.Replacement.replaceFromTo(start, end, text)`. */
  datatype Replacement = Replacement(start: int, end: int, text: string)

  /** One reported failure: the node it is anchored on, the message and the fix. */
  datatype Failure = Failure(anchor: Span, message: string, fix: Replacement)

  // ---------------------------------------------------------------- options

  function ArgumentIndex(args: seq<string>, arg: string): (r: int)
    ensures -1 <= r < |args|
    ensures r >= 0 ==> args[r] == arg && forall j :: 0 <= j < r ==> args[j] != arg
    ensures r == -1 <==> arg !in args
  {
    if |args| == 0 then -1
    else if args[0] == arg then 0
    else
      var k := ArgumentIndex(args[1..], arg);
      assert arg in args[1..] ==> arg in args;
      assert arg in args && args[0] != arg ==> arg in args[1..];
      if k == -1 then -1 else k + 1
  }

  const WhitespaceInsensitiveArg := "whitespace-insensitive"

  /** `ruleArguments.indexOf('whitespace-insensitive') > -1`. */
  function ParseOptions(ruleArguments: seq<string>): (o: Options)
    ensures o.whitespaceInsensitive <==> WhitespaceInsensitiveArg in ruleArguments
  {
    Options(ArgumentIndex(ruleArguments, WhitespaceInsensitiveArg) > -1)
  }

  // ---------------------------------------------------------------- classification

  predicate IsImportRequireStatement(s: Statement) {
    s.kind.ImportEqualsDeclaration?
  }

  predicate IsImportStatement(s: Statement) {
    s.kind.ImportDeclaration? || IsImportRequireStatement(s)
  }

  /** `!isImportRequireStatement(node) && !node.importClause`. */
  predicate IsSideEffectImport(s: Statement) {
    !IsImportRequireStatement(s) && !(s.kind.ImportDeclaration? && s.kind.importClause.Some?)
  }

  /**
   * Among imports, exactly the declarations without an import clause are
   * side-effect imports; an import-equals declaration never is.
   */
  lemma SideEffectClassification(s: Statement)
    requires IsImportStatement(s)
    ensures IsSideEffectImport(s) <==> s.kind.ImportDeclaration? && s.kind.importClause.None?
    ensures IsImportRequireStatement(s) ==> !IsSideEffectImport(s)
  {
  }

  /** The name the message shows for an import. */
  function BindingName(s: Statement): (r: string)
    requires IsImportStatement(s)
    ensures IsImportRequireStatement(s) ==> r == s.kind.name
    ensures IsSideEffectImport(s) ==> r == s.kind.moduleSpecifier
    ensures s.kind.ImportDeclaration? && !IsSideEffectImport(s) ==> r == s.kind.importClause.value
  {
    match s.kind
    case ImportEqualsDeclaration(name) => name
    case ImportDeclaration(clause, specifier) =>
      match clause
      case Some(c) => c
      case None => specifier
  }

  const MessagePrefix := "out-of-order imports: expected '"
  const MessageMiddle := "' but saw '"

  function FailureMessage(expected: Statement, actual: Statement): (m: string)
    requires IsImportStatement(expected) && IsImportStatement(actual)
  {
    MessagePrefix + BindingName(expected) + MessageMiddle + BindingName(actual) + "'"
  }

  // ---------------------------------------------------------------- groups

  /** The imports among `stmts`, in order. */
  function ImportsOf(stmts: seq<Statement>): seq<Statement> {
    if |stmts| == 0 then []
    else ImportsOf(stmts[..|stmts| - 1]) + (if IsImportStatement(stmts[|stmts| - 1]) then [stmts[|stmts| - 1]] else [])
  }

  function Flatten(groups: seq<seq<Statement>>): seq<Statement> {
    if |groups| == 0 then [] else Flatten(groups[..|groups| - 1]) + groups[|groups| - 1]
  }

  /** `stmts[lo..hi]` is a non-empty run of imports that cannot be extended on either side. */
  predicate IsImportRun(stmts: seq<Statement>, lo: int, hi: int) {
    && 0 <= lo < hi <= |stmts|
    && (forall j :: lo <= j < hi ==> IsImportStatement(stmts[j]))
    && (lo == 0 || !IsImportStatement(stmts[lo - 1]))
    && (hi == |stmts| || !IsImportStatement(stmts[hi]))
  }

  /** Each group is the slice of a maximal run of imports. */
  predicate AreRuns(stmts: seq<Statement>, groups: seq<seq<Statement>>, spans: seq<IndexRange>) {
    && |spans| == |groups|
    && (forall k :: 0 <= k < |groups| ==>
          IsImportRun(stmts, spans[k].start, spans[k].end) && groups[k] == stmts[spans[k].start..spans[k].end])
  }

  /** The ranges come in file order with a gap between neighbours. */
  predicate InFileOrder(spans: seq<IndexRange>) {
    forall k :: 0 < k < |spans| ==> spans[k - 1].end < spans[k].start
  }

  /** The groups are the maximal runs of imports, in file order, covering every import. */
  predicate AreImportGroups(stmts: seq<Statement>, groups: seq<seq<Statement>>, spans: seq<IndexRange>) {
    && AreRuns(stmts, groups, spans)
    && InFileOrder(spans)
    && Flatten(groups) == ImportsOf(stmts)
  }

  lemma FlattenUpdateLast(raw: seq<seq<Statement>>, x: Statement)
    requires |raw| > 0
    ensures Flatten(raw[|raw| - 1 := raw[|raw| - 1] + [x]]) == Flatten(raw) + [x]
  {
    var n := |raw|;
    assert raw[n - 1 := raw[n - 1] + [x]][..n - 1] == raw[..n - 1];
  }

  lemma FlattenSnoc(groups: seq<seq<Statement>>, g: seq<Statement>)
    ensures Flatten(groups + [g]) == Flatten(groups) + g
  {
    assert (groups + [g])[..|groups|] == groups;
  }

  lemma ImportsOfStep(stmts: seq<Statement>, i: int)
    requires 0 <= i < |stmts|
    ensures ImportsOf(stmts[..i + 1]) == ImportsOf(stmts[..i]) + (if IsImportStatement(stmts[i]) then [stmts[i]] else [])
  {
    assert stmts[..i + 1][..i] == stmts[..i];
  }

  /**
   * A raw group is the slice its span names; it holds imports only, and when
   * it is not empty no import comes right before it.
   */
  ghost predicate RawGroup(stmts: seq<Statement>, g: seq<Statement>, sp: IndexRange) {
    && 0 <= sp.start <= sp.end <= |stmts| && g == stmts[sp.start..sp.end]
    && (forall j :: sp.start <= j < sp.end ==> IsImportStatement(stmts[j]))
    && (|g| > 0 ==> sp.start == 0 || !IsImportStatement(stmts[sp.start - 1]))
  }

  /** A raw group that a non-import has closed. */
  ghost predicate ClosedGroup(stmts: seq<Statement>, g: seq<Statement>, sp: IndexRange) {
    RawGroup(stmts, g, sp) && sp.end < |stmts| && !IsImportStatement(stmts[sp.end])
  }

  /**
   * The last raw group after `i` statements: it reaches `i`; an empty one sits
   * at `i` after a non-import; `breakGroup` says whether the previous statement
   * was an import, and when it is false the group is empty.
   */
  ghost predicate OpenGroup(stmts: seq<Statement>, i: int, g: seq<Statement>, sp: IndexRange, breakGroup: bool)
    requires 0 <= i <= |stmts|
  {
    && RawGroup(stmts, g, sp) && sp.end == i
    && (|g| == 0 ==> sp.start == i && (i == 0 || !IsImportStatement(stmts[i - 1])))
    && (breakGroup <==> (i == 0 || IsImportStatement(stmts[i - 1])))
    && (!breakGroup ==> |g| == 0)
  }

  /**
   * The raw groups of `getImportGroups` after `i` statements: all but the last
   * are closed, the spans come in file order, and the last one is open.
   */
  ghost predicate RawGroups(stmts: seq<Statement>, i: int, raw: seq<seq<Statement>>, rawSpans: seq<IndexRange>, breakGroup: bool)
    requires 0 <= i <= |stmts|
  {
    && |raw| == |rawSpans| >= 1
    && (forall k :: 0 <= k < |raw| - 1 ==> ClosedGroup(stmts, raw[k], rawSpans[k]))
    && InFileOrder(rawSpans)
    && OpenGroup(stmts, i, raw[|raw| - 1], rawSpans[|raw| - 1], breakGroup)
  }

  /**
   * `getImportGroups`: walks the statements with the `breakGroup` flag of the
   * source, appending each import to the last group and opening a new group at
   * the first non-import after an import; empty groups are dropped at the end.
   */
  method GetImportGroups(stmts: seq<Statement>) returns (groups: seq<seq<Statement>>, spans: seq<IndexRange>)
    ensures AreImportGroups(stmts, groups, spans)
  {
    var raw: seq<seq<Statement>> := [[]];
    var rawSpans: seq<IndexRange> := [IndexRange(0, 0)];
    var breakGroup := true;
    var i := 0;
    while i < |stmts|
      invariant 0 <= i <= |stmts|
      invariant RawGroups(stmts, i, raw, rawSpans, breakGroup)
      invariant Flatten(raw) == ImportsOf(stmts[..i])
    {
      ImportsOfStep(stmts, i);
      var last := |raw| - 1;
      if IsImportStatement(stmts[i]) {
        AppendStep(stmts, i, raw, rawSpans, breakGroup);
        FlattenUpdateLast(raw, stmts[i]);
        raw := raw[last := raw[last] + [stmts[i]]];
        rawSpans := rawSpans[last := IndexRange(rawSpans[last].start, i + 1)];
        breakGroup := true;
      } else if breakGroup {
        CloseStep(stmts, i, raw, rawSpans);
        raw := raw + [[]];
        rawSpans := rawSpans + [IndexRange(i + 1, i + 1)];
        breakGroup := false;
      } else {
        SkipStep(stmts, i, raw, rawSpans);
        rawSpans := rawSpans[last := IndexRange(i + 1, i + 1)];
      }
      i := i + 1;
    }
    assert stmts[..i] == stmts;
    groups, spans := DropEmptyGroups(stmts, raw, rawSpans, breakGroup);
  }

  /** `importGroups.filter(group => group.length > 0)`. */
  method DropEmptyGroups(stmts: seq<Statement>, raw: seq<seq<Statement>>, rawSpans: seq<IndexRange>, ghost breakGroup: bool)
    returns (groups: seq<seq<Statement>>, spans: seq<IndexRange>)
    requires RawGroups(stmts, |stmts|, raw, rawSpans, breakGroup)
    requires Flatten(raw) == ImportsOf(stmts)
    ensures AreImportGroups(stmts, groups, spans)
  {
    groups := [];
    spans := [];
    var k := 0;
    while k < |raw|
      invariant 0 <= k <= |raw|
      invariant Filtered(stmts, raw, rawSpans, k, groups, spans)
    {
      if |raw[k]| > 0 {
        KeepStep(stmts, raw, rawSpans, breakGroup, k, groups, spans);
        groups := groups + [raw[k]];
        spans := spans + [rawSpans[k]];
      } else {
        DropStep(stmts, raw, rawSpans, breakGroup, k, groups, spans);
      }
      k := k + 1;
    }
    assert raw[..k] == raw;
  }

  /** The loop invariant of the filter: the non-empty raw groups among the first `k`. */
  ghost predicate Filtered(stmts: seq<Statement>, raw: seq<seq<Statement>>, rawSpans: seq<IndexRange>, k: int,
                           groups: seq<seq<Statement>>, spans: seq<IndexRange>)
    requires 0 <= k <= |raw| == |rawSpans|
  {
    && AreRuns(stmts, groups, spans)
    && InFileOrder(spans)
    && (|spans| > 0 && k < |raw| ==> spans[|spans| - 1].end < rawSpans[k].start)
    && Flatten(groups) == Flatten(raw[..k])
  }

  lemma KeepStep(stmts: seq<Statement>, raw: seq<seq<Statement>>, rawSpans: seq<IndexRange>, breakGroup: bool,
                 k: int, groups: seq<seq<Statement>>, spans: seq<IndexRange>)
    requires RawGroups(stmts, |stmts|, raw, rawSpans, breakGroup)
    requires 0 <= k < |raw| && |raw[k]| > 0
    requires Filtered(stmts, raw, rawSpans, k, groups, spans)
    ensures Filtered(stmts, raw, rawSpans, k + 1, groups + [raw[k]], spans + [rawSpans[k]])
  {
    assert raw[..k + 1] == raw[..k] + [raw[k]];
    FlattenSnoc(raw[..k], raw[k]);
    RawSpanFacts(stmts, raw, rawSpans, breakGroup, k);
    KeepRun(stmts, groups, spans, raw[k], rawSpans[k]);
    FlattenSnoc(groups, raw[k]);
  }

  lemma DropStep(stmts: seq<Statement>, raw: seq<seq<Statement>>, rawSpans: seq<IndexRange>, breakGroup: bool,
                 k: int, groups: seq<seq<Statement>>, spans: seq<IndexRange>)
    requires RawGroups(stmts, |stmts|, raw, rawSpans, breakGroup)
    requires 0 <= k < |raw| && |raw[k]| == 0
    requires Filtered(stmts, raw, rawSpans, k, groups, spans)
    ensures Filtered(stmts, raw, rawSpans, k + 1, groups, spans)
  {
    assert raw[..k + 1] == raw[..k] + [raw[k]];
    FlattenSnoc(raw[..k], raw[k]);
    RawSpanFacts(stmts, raw, rawSpans, breakGroup, k);
    assert Flatten(raw[..k]) + raw[k] == Flatten(raw[..k]);
  }

  /** A non-empty raw group is a maximal run, and raw spans are ordered. */
  lemma RawSpanFacts(stmts: seq<Statement>, raw: seq<seq<Statement>>, rawSpans: seq<IndexRange>, breakGroup: bool, k: int)
    requires RawGroups(stmts, |stmts|, raw, rawSpans, breakGroup)
    requires 0 <= k < |raw|
    ensures |raw[k]| > 0 ==> IsImportRun(stmts, rawSpans[k].start, rawSpans[k].end)
    ensures raw[k] == stmts[rawSpans[k].start..rawSpans[k].end]
    ensures rawSpans[k].start <= rawSpans[k].end
    ensures k + 1 < |raw| ==> rawSpans[k].end < rawSpans[k + 1].start
  {
    if k < |raw| - 1 {
      assert ClosedGroup(stmts, raw[k], rawSpans[k]);
    }
  }

  /** Keeping a further run after the last kept one preserves the group facts. */
  lemma KeepRun(stmts: seq<Statement>, groups: seq<seq<Statement>>, spans: seq<IndexRange>, g: seq<Statement>, sp: IndexRange)
    requires AreRuns(stmts, groups, spans) && InFileOrder(spans)
    requires IsImportRun(stmts, sp.start, sp.end) && g == stmts[sp.start..sp.end]
    requires |spans| > 0 ==> spans[|spans| - 1].end < sp.start
    ensures AreRuns(stmts, groups + [g], spans + [sp]) && InFileOrder(spans + [sp])
  {
  }

  /** Appending an import to the last raw group keeps the raw-group invariant. */
  lemma AppendStep(stmts: seq<Statement>, i: int, raw: seq<seq<Statement>>, rawSpans: seq<IndexRange>, breakGroup: bool)
    requires 0 <= i < |stmts| && IsImportStatement(stmts[i])
    requires RawGroups(stmts, i, raw, rawSpans, breakGroup)
    ensures var last := |raw| - 1;
            RawGroups(stmts, i + 1, raw[last := raw[last] + [stmts[i]]],
                      rawSpans[last := IndexRange(rawSpans[last].start, i + 1)], true)
  {
    var last := |raw| - 1;
    OpenAppend(stmts, i, raw[last], rawSpans[last], breakGroup);
  }

  lemma OpenAppend(stmts: seq<Statement>, i: int, g: seq<Statement>, sp: IndexRange, breakGroup: bool)
    requires 0 <= i < |stmts| && IsImportStatement(stmts[i])
    requires OpenGroup(stmts, i, g, sp, breakGroup)
    ensures OpenGroup(stmts, i + 1, g + [stmts[i]], IndexRange(sp.start, i + 1), true)
  {
    assert stmts[sp.start..i + 1] == stmts[sp.start..i] + [stmts[i]];
  }

  /** The first non-import after an import opens a new, empty raw group. */
  lemma CloseStep(stmts: seq<Statement>, i: int, raw: seq<seq<Statement>>, rawSpans: seq<IndexRange>)
    requires 0 <= i < |stmts| && !IsImportStatement(stmts[i])
    requires RawGroups(stmts, i, raw, rawSpans, true)
    ensures RawGroups(stmts, i + 1, raw + [[]], rawSpans + [IndexRange(i + 1, i + 1)], false)
    ensures Flatten(raw + [[]]) == Flatten(raw)
  {
    var last := |raw| - 1;
    assert ClosedGroup(stmts, raw[last], rawSpans[last]);
    ClosedStaysClosed(stmts, raw, rawSpans, [], IndexRange(i + 1, i + 1));
    assert OpenGroup(stmts, i + 1, [], IndexRange(i + 1, i + 1), false);
    FlattenSnoc(raw, []);
    assert Flatten(raw) + [] == Flatten(raw);
  }

  /** Appending a group keeps every earlier group closed and the spans in order. */
  lemma ClosedStaysClosed(stmts: seq<Statement>, raw: seq<seq<Statement>>, rawSpans: seq<IndexRange>, g: seq<Statement>, sp: IndexRange)
    requires |raw| == |rawSpans| >= 1
    requires forall k :: 0 <= k < |raw| ==> ClosedGroup(stmts, raw[k], rawSpans[k])
    requires InFileOrder(rawSpans) && rawSpans[|raw| - 1].end < sp.start
    ensures forall k :: 0 <= k < |raw| ==> ClosedGroup(stmts, (raw + [g])[k], (rawSpans + [sp])[k])
    ensures InFileOrder(rawSpans + [sp])
  {
  }

  /** A further non-import leaves the empty last raw group empty. */
  lemma SkipStep(stmts: seq<Statement>, i: int, raw: seq<seq<Statement>>, rawSpans: seq<IndexRange>)
    requires 0 <= i < |stmts| && !IsImportStatement(stmts[i])
    requires RawGroups(stmts, i, raw, rawSpans, false)
    ensures RawGroups(stmts, i + 1, raw, rawSpans[|raw| - 1 := IndexRange(i + 1, i + 1)], false)
  {
    var last := |raw| - 1;
    assert OpenGroup(stmts, i + 1, raw[last], IndexRange(i + 1, i + 1), false);
  }

  /** Two adjacent imports in the file always land in the same group. */
  lemma {:induction false} AdjacentImportsShareGroup(stmts: seq<Statement>, groups: seq<seq<Statement>>, spans: seq<IndexRange>, k: int, j: int)
    requires AreImportGroups(stmts, groups, spans)
    requires 0 <= k < |groups| && spans[k].start <= j < spans[k].end
    requires j + 1 < |stmts| && IsImportStatement(stmts[j + 1])
    ensures j + 1 < spans[k].end
  {
    assert IsImportRun(stmts, spans[k].start, spans[k].end);
  }

  // ---------------------------------------------------------------- sort keys

  const NamedImportOpening := "import {"
  const NamedImportSentinel := "import +"

  /**
   * The sortable line of an import: its text lower-cased, the first `import {`
   * turned into `import +` (so named imports sort before default imports), and
   * with the option set, white space normalised.
   */
  function SortKey(text: string, whitespaceInsensitive: bool): (k: string)
  {
    var line := Strings.ReplaceFirst(Strings.Lower(text), NamedImportOpening, NamedImportSentinel);
    if whitespaceInsensitive then Strings.NormalizeAllWhitespace(line) else line
  }

  /** A named import's key starts with the sentinel where its text has `import {`, in either mode. */
  lemma NamedImportKey(text: string, whitespaceInsensitive: bool)
    requires |text| >= 8 && Strings.Lower(text[..8]) == NamedImportOpening
    ensures !whitespaceInsensitive ==> SortKey(text, false) == NamedImportSentinel + Strings.Lower(text[8..])
    ensures whitespaceInsensitive ==>
              SortKey(text, true) == Strings.NormalizeAllWhitespace(NamedImportSentinel + Strings.Lower(text[8..]))
  {
    var low := Strings.Lower(text);
    assert text == text[..8] + text[8..];
    Strings.LowerConcat(text[..8], text[8..]);
    assert low[..8] == NamedImportOpening;
    Strings.ReplaceFirstAtStart(low, NamedImportOpening, NamedImportSentinel);
    assert low[8..] == Strings.Lower(text[8..]);
  }

  /** Without the brace pattern, the key in the default mode is just the lower-cased text. */
  lemma KeyWithoutNamedOpening(text: string)
    requires !Strings.Contains(Strings.Lower(text), NamedImportOpening)
    ensures SortKey(text, false) == Strings.Lower(text)
  {
  }

  /**
   * In the whitespace-insensitive mode, a named import keeps its key when one
   * white-space run after the `import {` opening is replaced by another.
   */
  lemma KeyRunInsensitive(p: string, w1: string, w2: string, q: string)
    requires |p| >= 8 && Strings.Lower(p[..8]) == NamedImportOpening
    requires |w1| > 0 && Strings.AllWhitespace(w1)
    requires |w2| > 0 && Strings.AllWhitespace(w2)
    ensures SortKey(p + w1 + q, true) == SortKey(p + w2 + q, true)
  {
    var pre := NamedImportSentinel + Strings.Lower(p[8..]);
    KeyAroundRun(p, w1, q);
    KeyAroundRun(p, w2, q);
    Strings.NormalizeRunInsensitive(pre, w1, w2, Strings.Lower(q));
  }

  /**
   * In the whitespace-insensitive mode, an import without the `import {`
   * opening (a default, namespace, side-effect or import-equals import) keeps
   * its key when one white-space run in it is replaced by another.
   */
  lemma KeyRunInsensitiveUnnamed(p: string, w1: string, w2: string, q: string)
    requires |w1| > 0 && Strings.AllWhitespace(w1)
    requires |w2| > 0 && Strings.AllWhitespace(w2)
    requires !Strings.Contains(Strings.Lower(p + w1 + q), NamedImportOpening)
    requires !Strings.Contains(Strings.Lower(p + w2 + q), NamedImportOpening)
    ensures SortKey(p + w1 + q, true) == SortKey(p + w2 + q, true)
  {
    Strings.LowerAroundRun(p, w1, q);
    Strings.LowerAroundRun(p, w2, q);
    Strings.NormalizeRunInsensitive(Strings.Lower(p), w1, w2, Strings.Lower(q));
  }

  /**
   * In the default mode white space counts: two texts that differ only in one
   * white-space run get different keys.
   */
  lemma KeyWhitespaceSensitive(p: string, w1: string, w2: string, q: string)
    requires Strings.AllWhitespace(w1) && Strings.AllWhitespace(w2)
    requires w1 != w2
    ensures SortKey(p + w1 + q, false) != SortKey(p + w2 + q, false)
  {
    var t1, t2 := p + w1 + q, p + w2 + q;
    KeyKeepsAllButBrace(t1);
    KeyKeepsAllButBrace(t2);
    if |w1| == |w2| {
      var m :| 0 <= m < |w1| && w1[m] != w2[m];
      var j := |p| + m;
      assert t1[j] == w1[m] && t2[j] == w2[m];
      assert Strings.IsWhitespace(w1[m]) && Strings.IsWhitespace(w2[m]);
      assert Strings.Lower(t1)[j] == w1[m];
      assert Strings.Lower(t2)[j] == w2[m];
      assert SortKey(t1, false)[j] == w1[m];
      assert SortKey(t2, false)[j] == w2[m];
    }
  }

  /**
   * The default-mode key has the text's length and agrees with the
   * lower-cased text everywhere except at the brace of the first `import {`.
   */
  lemma KeyKeepsAllButBrace(t: string)
    ensures |SortKey(t, false)| == |t|
    ensures forall j :: 0 <= j < |t| && Strings.Lower(t)[j] != '{' ==> SortKey(t, false)[j] == Strings.Lower(t)[j]
  {
    var l := Strings.Lower(t);
    var k := SortKey(t, false);
    match Strings.IndexOf(l, NamedImportOpening)
    case None =>
    case Some(i) =>
      assert k == l[..i] + NamedImportSentinel + l[i + 8..];
      assert l == l[..i] + NamedImportOpening + l[i + 8..];
      forall j | 0 <= j < |t| && l[j] != '{' ensures k[j] == l[j] {
        if i <= j < i + 8 {
          assert k[j] == NamedImportSentinel[j - i] && l[j] == NamedImportOpening[j - i];
        }
      }
  }

  lemma KeyAroundRun(p: string, w: string, q: string)
    requires |p| >= 8 && Strings.Lower(p[..8]) == NamedImportOpening
    requires Strings.AllWhitespace(w)
    ensures SortKey(p + w + q, true)
            == Strings.NormalizeAllWhitespace(NamedImportSentinel + Strings.Lower(p[8..]) + w + Strings.Lower(q))
  {
    LowerAfterOpening(p, w, q);
    NamedImportKey(p + w + q, true);
  }

  /** What follows the opening of `p + w + q`, lower-cased, when `w` is white space. */
  lemma LowerAfterOpening(p: string, w: string, q: string)
    requires |p| >= 8 && Strings.AllWhitespace(w)
    ensures var t := p + w + q;
            && t[..8] == p[..8]
            && NamedImportSentinel + Strings.Lower(t[8..])
               == NamedImportSentinel + Strings.Lower(p[8..]) + w + Strings.Lower(q)
  {
    var t := p + w + q;
    assert t[..8] == p[..8];
    assert t[8..] == p[8..] + w + q;
    Strings.LowerAroundRun(p[8..], w, q);
  }

  /**
   * The brace swap happens before white space is normalised, so a run of white
   * space between `import` and `{` changes the key even in the
   * whitespace-insensitive mode: only one of the two keys holds the sentinel `+`.
   */
  lemma SpaceBeforeBraceChangesKey()
    ensures '+' in SortKey("import {a}", true)
    ensures '+' !in SortKey("import  {a}", true)
  {
    TightKeyHasSentinel();
    WideKeyLacksSentinel();
  }

  lemma TightKeyHasSentinel()
    ensures '+' in SortKey("import {a}", true)
  {
    var tight := "import {a}";
    LowerOfLowerCase(tight);
    Strings.ReplaceFirstAtStart(tight, NamedImportOpening, NamedImportSentinel);
    var swapped := Strings.ReplaceFirst(tight, NamedImportOpening, NamedImportSentinel);
    assert swapped[7] == '+';
    Strings.CollapseKeepsChar(swapped, '+');
    Strings.ReplaceFirstKeeps(Strings.CollapseWhitespace(swapped), ", }", " }", '+');
  }

  lemma WideKeyLacksSentinel()
    ensures '+' !in SortKey("import  {a}", true)
  {
    var wide := "import  {a}";
    LowerOfLowerCase(wide);
    assert Strings.IndexOf(wide, NamedImportOpening).None? by {
      forall j ensures !Strings.OccursAt(wide, NamedImportOpening, j) {
        if 0 <= j && j + 8 <= |wide| {
          assert wide[j..j + 8][0] == wide[j];
          assert wide[j..j + 8][7] == wide[j + 7];
        }
      }
    }
    assert '+' !in wide;
    Strings.CollapseKeepsChar(wide, '+');
    Strings.ReplaceFirstAddsOnlyReplacement(Strings.CollapseWhitespace(wide), ", }", " }", '+');
  }

  lemma LowerOfLowerCase(s: string)
    requires forall i :: 0 <= i < |s| ==> !('A' <= s[i] <= 'Z')
    ensures Strings.Lower(s) == s
  {
  }

  // ---------------------------------------------------------------- the key table

  /** `j` is the last position of `keys[j]` in `keys`. */
  predicate IsLastOccurrence(keys: seq<string>, j: int)
    requires 0 <= j < |keys|
  {
    forall m :: j < m < |keys| ==> keys[m] != keys[j]
  }

  /**
   * `sortableLinesToImports`: a `Map` from key to import, filled in source
   * order, so a key shared by several imports ends up with the last of them.
   */
  function KeyTable(keys: seq<string>, group: seq<Statement>): (table: map<string, Statement>)
    requires |keys| == |group|
    ensures forall k :: k in table <==> k in keys
    ensures forall j :: 0 <= j < |keys| && IsLastOccurrence(keys, j) ==> table[keys[j]] == group[j]
  {
    if |keys| == 0 then map[]
    else
      var n := |keys|;
      var prev := KeyTable(keys[..n - 1], group[..n - 1]);
      LastOccurrenceInPrefix(keys);
      prev[keys[n - 1] := group[n - 1]]
  }

  /** How the keys relate to the keys without the last one. */
  lemma LastOccurrenceInPrefix(keys: seq<string>)
    requires |keys| > 0
    ensures forall k :: k in keys <==> k in keys[..|keys| - 1] || k == keys[|keys| - 1]
    ensures forall j :: 0 <= j < |keys| - 1 ==> keys[..|keys| - 1][j] == keys[j]
    ensures forall j :: 0 <= j < |keys| - 1 && IsLastOccurrence(keys, j) ==> IsLastOccurrence(keys[..|keys| - 1], j)
  {
    assert keys == keys[..|keys| - 1] + [keys[|keys| - 1]];
  }

  /** Every key has a last occurrence. */
  lemma LastOccurrenceExists(keys: seq<string>, k: string) returns (j: int)
    requires k in keys
    ensures 0 <= j < |keys| && keys[j] == k && IsLastOccurrence(keys, j)
  {
    var n := |keys|;
    if keys[n - 1] == k {
      j := n - 1;
    } else {
      assert k in keys[..n - 1] by { assert keys == keys[..n - 1] + [keys[n - 1]]; }
      j := LastOccurrenceExists(keys[..n - 1], k);
    }
  }

  /** Every table entry is one of the group's imports. */
  lemma TableEntryInGroup(keys: seq<string>, group: seq<Statement>, k: string)
    requires |keys| == |group| && k in keys
    ensures KeyTable(keys, group)[k] in group
  {
    var j := LastOccurrenceExists(keys, k);
  }

  /** The keys whose table entry is a side-effect import. */
  function SideEffectKeys(table: map<string, Statement>): set<string> {
    set k | k in table && IsSideEffectImport(table[k])
  }

  // ---------------------------------------------------------------- per-group analysis

  /** The sort key of one import under the options. */
  function Key(s: Statement, options: Options): string {
    SortKey(s.text, options.whitespaceInsensitive)
  }

  /** `unsortedLines`: the keys of a group in source order. */
  function KeysOf(group: seq<Statement>, options: Options): (keys: seq<string>)
    ensures |keys| == |group|
    ensures forall j :: 0 <= j < |group| ==> keys[j] == Key(group[j], options)
  {
    seq(|group|, j requires 0 <= j < |group| => Key(group[j], options))
  }

  /** The keys of a group in source order, the table, the side-effect keys and the sorted keys. */
  datatype Analysis = Analysis(
    keys: seq<string>,
    table: map<string, Statement>,
    sideEffects: set<string>,
    sorted: seq<string>)

  /**
   * What the walk relies on in an analysis of `group`: one key per import,
   * a table over exactly those keys, the side-effect keys, and sorted keys
   * that are a permutation of the keys.
   */
  ghost predicate Valid(an: Analysis, group: seq<Statement>) {
    && |an.keys| == |group| == |an.sorted|
    && (forall k :: k in an.table <==> k in an.keys)
    && multiset(an.sorted) == multiset(an.keys)
    && (forall k :: k in an.keys ==> (k in an.sideEffects <==> IsSideEffectImport(an.table[k])))
  }

  /** The table, side-effect keys and sorted keys for a group whose keys are `keys`. */
  function Analyze(group: seq<Statement>, keys: seq<string>): (an: Analysis)
    requires |keys| == |group|
    ensures an.keys == keys && Valid(an, group)
  {
    var table := KeyTable(keys, group);
    var se := SideEffectKeys(table);
    var sorted := ImportOrder.Sort(se, keys);
    assert |sorted| == |multiset(sorted)| == |keys|;
    Analysis(keys, table, se, sorted)
  }

  /** Position `i` is a reportable mismatch: keys differ and neither belongs to a side-effect import. */
  predicate ReportableAt(an: Analysis, i: int)
    requires 0 <= i < |an.keys| && |an.sorted| == |an.keys|
  {
    an.keys[i] != an.sorted[i] && an.keys[i] !in an.sideEffects && an.sorted[i] !in an.sideEffects
  }

  /** The loop of `walk` over positions, from `i` on: the first reportable mismatch. */
  function FirstMismatchFrom(an: Analysis, i: nat): (r: Option<nat>)
    requires |an.sorted| == |an.keys|
    decreases |an.keys| - i
    ensures r.Some? ==> i <= r.value < |an.keys| && ReportableAt(an, r.value)
    ensures r.Some? ==> forall j :: i <= j < r.value ==> !ReportableAt(an, j)
    ensures r.None? ==> forall j :: i <= j < |an.keys| ==> !ReportableAt(an, j)
  {
    if i >= |an.keys| then None
    else if ReportableAt(an, i) then Some(i)
    else FirstMismatchFrom(an, i + 1)
  }

  /** `findIndex`: the first position whose key is `k`. */
  function FindIndex(keys: seq<string>, k: string): (r: Option<nat>)
    ensures r.Some? ==> r.value < |keys| && keys[r.value] == k && forall j :: 0 <= j < r.value ==> keys[j] != k
    ensures r.None? <==> k !in keys
  {
    if |keys| == 0 then None
    else if keys[0] == k then Some(0)
    else match FindIndex(keys[1..], k)
      case None =>
        assert k !in keys by { assert keys == [keys[0]] + keys[1..]; }
        None
      case Some(j) => Some(j + 1)
  }

  /** The values a table holds for the keys `ks`, in order. */
  function Lookup<K, V>(table: map<K, V>, ks: seq<K>): (vs: seq<V>)
    requires forall k :: k in ks ==> k in table
    ensures |vs| == |ks|
    ensures forall j :: 0 <= j < |ks| ==> vs[j] == table[ks[j]]
  {
    seq(|ks|, j requires 0 <= j < |ks| => table[ks[j]])
  }

  /** What one import contributes to the fix: its full text, trimmed. */
  function FixPiece(s: Statement): string {
    Strings.Trim(s.fullText)
  }

  /** The fix piece of each table entry, under the same key. */
  function PieceTable(table: map<string, Statement>): (pieces: map<string, string>)
    ensures forall k :: k in pieces <==> k in table
    ensures forall k :: k in table ==> pieces[k] == FixPiece(table[k])
  {
    map k | k in table :: FixPiece(table[k])
  }

  /** `sortedImports`: the fix piece of the import each sorted key maps to. */
  function SortedImportTexts(an: Analysis): (pieces: seq<string>)
    requires forall k :: k in an.sorted ==> k in an.table
    ensures |pieces| == |an.sorted|
  {
    Lookup(PieceTable(an.table), an.sorted)
  }

  /** The node a failure is anchored on: the first token for a multi-line import, else the import. */
  function FailureAnchor(actual: Statement): (a: Span)
    ensures a == actual.firstToken || a == Span(actual.start, actual.end)
    ensures '\n' in Strings.Trim(actual.text) ==> a == actual.firstToken
    ensures '\n' !in Strings.Trim(actual.text) ==> a == Span(actual.start, actual.end)
  {
    if '\n' in Strings.Trim(actual.text) then actual.firstToken else Span(actual.start, actual.end)
  }

  /** The message of a failure, passed through `normalizeAllWhitespace`. */
  function Message(expected: Statement, actual: Statement): string
    requires IsImportStatement(expected) && IsImportStatement(actual)
  {
    Strings.NormalizeAllWhitespace(FailureMessage(expected, actual))
  }

  /** Every sorted key is a key of the table. */
  lemma SortedKeysInTable(an: Analysis, group: seq<Statement>)
    requires Valid(an, group)
    ensures forall k :: k in an.sorted ==> k in an.table
  {
    forall k | k in an.sorted ensures k in an.table {
      assert k in multiset(an.keys);
    }
  }

  /**
   * The body of `walk` for one import group, given its analysis: nothing, or
   * one failure with its fix.
   */
  function Verdict(group: seq<Statement>, an: Analysis, newline: Newline): (r: Option<Failure>)
    requires |group| > 0 && Valid(an, group)
    requires forall s :: s in group ==> IsImportStatement(s)
    ensures r.Some? ==> r.value.fix.start == group[0].start && r.value.fix.end == group[|group| - 1].end
    ensures r.Some? ==> exists s :: s in group && (r.value.anchor == s.firstToken || r.value.anchor == Span(s.start, s.end))
  {
    match FirstMismatchFrom(an, 0)
    case None => None
    case Some(i) =>
      assert an.sorted[i] in multiset(an.keys);
      match FindIndex(an.keys, an.sorted[i])
      case None => assert false; None
      case Some(e) =>
        SortedKeysInTable(an, group);
        var text := Strings.Join(SortedImportTexts(an), newline.Text());
        Some(Failure(FailureAnchor(group[i]), Message(group[e], group[i]),
                     Replacement(group[0].start, group[|group| - 1].end, text)))
  }

  /** What `walk` reports for one import group whose keys are `keys`. */
  function CheckLines(group: seq<Statement>, keys: seq<string>, newline: Newline): (r: Option<Failure>)
    requires |group| > 0 && |keys| == |group|
    requires forall s :: s in group ==> IsImportStatement(s)
    ensures r.Some? ==> r.value.fix.start == group[0].start && r.value.fix.end == group[|group| - 1].end
  {
    Verdict(group, Analyze(group, keys), newline)
  }

  /** One import group under the options. */
  function CheckGroup(group: seq<Statement>, options: Options, newline: Newline): (r: Option<Failure>)
    requires |group| > 0 && forall s :: s in group ==> IsImportStatement(s)
    ensures r.Some? ==> r.value.fix.start == group[0].start && r.value.fix.end == group[|group| - 1].end
  {
    CheckLines(group, KeysOf(group, options), newline)
  }

  // ---------------------------------------------------------------- group verdicts

  /** A group fails exactly when some position is a reportable mismatch. */
  lemma VerdictFiresIff(group: seq<Statement>, an: Analysis, newline: Newline)
    requires |group| > 0 && Valid(an, group) && forall s :: s in group ==> IsImportStatement(s)
    ensures Verdict(group, an, newline).Some? <==> exists i :: 0 <= i < |group| && ReportableAt(an, i)
  {
    match FirstMismatchFrom(an, 0)
    case None =>
    case Some(i) =>
      assert an.sorted[i] in multiset(an.keys);
  }

  /** A group whose keys are already in comparator order draws no failure. */
  lemma SortedGroupPasses(group: seq<Statement>, keys: seq<string>, newline: Newline)
    requires |group| > 0 && |keys| == |group| && forall s :: s in group ==> IsImportStatement(s)
    requires ImportOrder.Sorted(Analyze(group, keys).sideEffects, keys)
    ensures CheckLines(group, keys, newline).None?
  {
    var an := Analyze(group, keys);
    ImportOrder.SortOfSorted(an.sideEffects, keys);
    VerdictFiresIff(group, an, newline);
  }

  /** A group of side-effect imports only is never reported, whatever its order. */
  lemma SideEffectGroupPasses(group: seq<Statement>, keys: seq<string>, newline: Newline)
    requires |group| > 0 && |keys| == |group|
    requires forall s :: s in group ==> IsImportStatement(s) && IsSideEffectImport(s)
    ensures CheckLines(group, keys, newline).None?
  {
    var an := Analyze(group, keys);
    forall i | 0 <= i < |group| ensures keys[i] in an.sideEffects {
      TableEntryInGroup(keys, group, keys[i]);
    }
    VerdictFiresIff(group, an, newline);
  }

  /**
   * The failure of a group: the first reportable position `i` is the actual
   * import, the first import whose key is the sorted key at `i` is the
   * expected one, and the message names both.
   */
  lemma FailureDetails(group: seq<Statement>, an: Analysis, newline: Newline, i: int, e: int)
    requires |group| > 0 && Valid(an, group) && forall s :: s in group ==> IsImportStatement(s)
    requires 0 <= i < |group| && ReportableAt(an, i)
    requires forall j :: 0 <= j < i ==> !ReportableAt(an, j)
    requires 0 <= e < |group| && an.keys[e] == an.sorted[i]
    requires forall j :: 0 <= j < e ==> an.keys[j] != an.keys[e]
    ensures Verdict(group, an, newline).Some?
    ensures Verdict(group, an, newline).value.message == Message(group[e], group[i])
    ensures Verdict(group, an, newline).value.anchor == FailureAnchor(group[i])
  {
    assert FirstMismatchFrom(an, 0) == Some(i);
    assert FindIndex(an.keys, an.sorted[i]) == Some(e);
  }

  /**
   * The fix of a failing group replaces everything from the start of its
   * first import to the end of its last by the fix pieces in sorted order,
   * joined with the file's newline.
   */
  lemma FailureFix(group: seq<Statement>, an: Analysis, newline: Newline)
    requires |group| > 0 && Valid(an, group) && forall s :: s in group ==> IsImportStatement(s)
    requires Verdict(group, an, newline).Some?
    ensures (forall k :: k in an.sorted ==> k in an.table)
            && Verdict(group, an, newline).value.fix
               == Replacement(group[0].start, group[|group| - 1].end, Strings.Join(SortedImportTexts(an), newline.Text()))
  {
    SortedKeysInTable(an, group);
  }

  /**
   * `import { z } from 'z'; import './fx'; import { a } from 'a'` in the
   * abstract: a side-effect import sits between two named imports that are out
   * of order. Positions 0 and 1 are skipped because a side-effect key is
   * involved, so the failure is reported at position 2, expecting the import
   * at position 0; the fix puts the side-effect import first.
   */
  lemma SideEffectBetweenOutOfOrderImports(group: seq<Statement>, an: Analysis, newline: Newline)
    requires |group| == 3 && Valid(an, group) && forall s :: s in group ==> IsImportStatement(s)
    requires an.keys[1] in an.sideEffects && an.keys[0] !in an.sideEffects && an.keys[2] !in an.sideEffects
    requires LexOrder.Less(an.keys[1], an.keys[2]) && LexOrder.Less(an.keys[2], an.keys[0])
    requires an.sorted == [an.keys[1], an.keys[2], an.keys[0]]
    ensures Verdict(group, an, newline).Some?
    ensures Verdict(group, an, newline).value.message == Message(group[0], group[2])
    ensures Verdict(group, an, newline).value.anchor == FailureAnchor(group[2])
  {
    LexOrder.Irreflexive(an.keys[2]);
    LexOrder.Asymmetric(an.keys[2], an.keys[0]);
    assert !ReportableAt(an, 0) && !ReportableAt(an, 1) && ReportableAt(an, 2);
    FailureDetails(group, an, newline, 2, 0);
  }

  /**
   * The analysis of such a group: the side-effect key is the one of the
   * middle import, the sorted keys move it to the front, and the fix pieces
   * follow.
   */
  lemma SideEffectBetweenSorted(group: seq<Statement>, keys: seq<string>)
    requires |group| == 3 == |keys|
    requires IsSideEffectImport(group[1]) && !IsSideEffectImport(group[0]) && !IsSideEffectImport(group[2])
    requires LexOrder.Less(keys[1], keys[2]) && LexOrder.Less(keys[2], keys[0])
    ensures var an := Analyze(group, keys);
            && keys[1] in an.sideEffects && keys[0] !in an.sideEffects && keys[2] !in an.sideEffects
            && an.sorted == [keys[1], keys[2], keys[0]]
            && (forall k :: k in an.sorted ==> k in an.table)
            && |SortedImportTexts(an)| == 3
            && SortedImportTexts(an)[0] == FixPiece(group[1])
            && SortedImportTexts(an)[1] == FixPiece(group[2])
            && SortedImportTexts(an)[2] == FixPiece(group[0])
  {
    var an := Analyze(group, keys);
    ThreeKeysTable(group, keys);
    AnalyzeSorts(group, keys);
    SortThreeKeys(an.sideEffects, keys);
    SortedKeysInTable(an, group);
    var pieces := SortedImportTexts(an);
    assert pieces[0] == FixPiece(group[1]) && pieces[1] == FixPiece(group[2]) && pieces[2] == FixPiece(group[0]);
  }

  /** The sorted keys of an analysis are the keys sorted under its side-effect keys. */
  lemma AnalyzeSorts(group: seq<Statement>, keys: seq<string>)
    requires |keys| == |group|
    ensures Analyze(group, keys).sorted == ImportOrder.Sort(Analyze(group, keys).sideEffects, keys)
  {
  }

  lemma SortThreeKeys(se: set<string>, keys: seq<string>)
    requires |keys| == 3 && keys[1] in se && keys[0] !in se && keys[2] !in se
    requires LexOrder.Less(keys[1], keys[2]) && LexOrder.Less(keys[2], keys[0])
    ensures ImportOrder.Sort(se, keys) == [keys[1], keys[2], keys[0]]
  {
    assert keys == [keys[0], keys[1], keys[2]];
    ImportOrder.SortAroundSideEffect(se, keys[0], keys[1], keys[2]);
  }

  /** Three distinct keys: each maps to its own import, and the side-effect keys follow the imports. */
  lemma ThreeKeysTable(group: seq<Statement>, keys: seq<string>)
    requires |group| == 3 == |keys|
    requires LexOrder.Less(keys[1], keys[2]) && LexOrder.Less(keys[2], keys[0])
    ensures var an := Analyze(group, keys);
            && an.table[keys[0]] == group[0] && an.table[keys[1]] == group[1] && an.table[keys[2]] == group[2]
            && (keys[0] in an.sideEffects <==> IsSideEffectImport(group[0]))
            && (keys[1] in an.sideEffects <==> IsSideEffectImport(group[1]))
            && (keys[2] in an.sideEffects <==> IsSideEffectImport(group[2]))
  {
    LexOrder.Transitive(keys[1], keys[2], keys[0]);
    LexOrder.Irreflexive(keys[0]);
    LexOrder.Irreflexive(keys[2]);
    LexOrder.Asymmetric(keys[1], keys[2]);
    assert IsLastOccurrence(keys, 0) && IsLastOccurrence(keys, 1) && IsLastOccurrence(keys, 2);
  }

  // ---------------------------------------------------------------- the fix text

  lemma LookupConcat<K, V>(table: map<K, V>, u: seq<K>, v: seq<K>)
    requires forall k :: k in u + v ==> k in table
    ensures Lookup(table, u + v) == Lookup(table, u) + Lookup(table, v)
  {
    assert forall k :: k in u ==> k in u + v;
    assert forall k :: k in v ==> k in u + v;
  }

  /** Looking keys up respects permutation: equal key multisets give equal value multisets. */
  lemma {:induction false} LookupPermutation<K, V>(table: map<K, V>, a: seq<K>, b: seq<K>)
    requires forall k :: k in a ==> k in table
    requires multiset(a) == multiset(b)
    ensures forall k :: k in b ==> k in table
    ensures multiset(Lookup(table, a)) == multiset(Lookup(table, b))
    decreases |a|
  {
    assert forall k :: k in b ==> k in table by {
      forall k | k in b ensures k in table { assert k in multiset(a); }
    }
    if |a| > 0 {
      var n := |a|;
      var x := a[n - 1];
      assert x in multiset(b);
      var p :| 0 <= p < |b| && b[p] == x;
      var rest := b[..p] + b[p + 1..];
      RemoveOne(a, b, p);
      assert forall k :: k in a[..n - 1] ==> k in a;
      LookupPermutation(table, a[..n - 1], rest);
      LookupSplit(table, a, n - 1);
      assert a[..n - 1] + a[n..] == a[..n - 1];
      LookupSplit(table, b, p);
    }
  }

  /** Removing one copy of the same element from two permutations leaves permutations. */
  lemma RemoveOne<K>(a: seq<K>, b: seq<K>, p: int)
    requires multiset(a) == multiset(b) && |a| > 0
    requires 0 <= p < |b| && b[p] == a[|a| - 1]
    ensures multiset(a[..|a| - 1]) == multiset(b[..p] + b[p + 1..])
  {
    var n, x := |a|, a[|a| - 1];
    assert a == a[..n - 1] + [x];
    assert b == b[..p] + [x] + b[p + 1..];
    assert multiset(b) == multiset(b[..p]) + multiset{x} + multiset(b[p + 1..]);
    assert multiset(a[..n - 1]) == multiset(a) - multiset{x};
  }

  /** The looked-up values are those of the keys without position `p`, plus the value at `p`. */
  lemma LookupSplit<K, V>(table: map<K, V>, b: seq<K>, p: int)
    requires forall k :: k in b ==> k in table
    requires 0 <= p < |b|
    ensures forall k :: k in b[..p] + b[p + 1..] ==> k in table
    ensures multiset(Lookup(table, b)) == multiset(Lookup(table, b[..p] + b[p + 1..])) + multiset{table[b[p]]}
  {
    var u, v := b[..p], b[p + 1..];
    LookupAround(table, b, p);
    assert forall k :: k in u + v ==> k in b;
    LookupConcat(table, u, v);
  }

  lemma LookupAround<K, V>(table: map<K, V>, b: seq<K>, p: int)
    requires forall k :: k in b ==> k in table
    requires 0 <= p < |b|
    ensures Lookup(table, b) == Lookup(table, b[..p]) + [table[b[p]]] + Lookup(table, b[p + 1..])
  {
    assert forall k :: k in b[..p] ==> k in b;
    assert forall k :: k in b[p + 1..] ==> k in b;
    var u, v := Lookup(table, b[..p]), Lookup(table, b[p + 1..]);
    var r := u + [table[b[p]]] + v;
    forall j | 0 <= j < |b| ensures r[j] == Lookup(table, b)[j] {
      if j < p {
        assert r[j] == u[j];
      } else if p < j {
        assert r[j] == v[j - p - 1];
      }
    }
  }

  /** The fix pieces of a group in source order. */
  function SourcePieces(group: seq<Statement>): (pieces: seq<string>)
    ensures |pieces| == |group|
    ensures forall j :: 0 <= j < |group| ==> pieces[j] == FixPiece(group[j])
  {
    seq(|group|, j requires 0 <= j < |group| => FixPiece(group[j]))
  }

  /**
   * When no two imports of a group share a key, the fix text is made of the
   * group's own fix pieces, each exactly once: a reordering.
   */
  lemma FixIsReordering(group: seq<Statement>, keys: seq<string>)
    requires |keys| == |group|
    requires forall j, m :: 0 <= j < m < |group| ==> keys[j] != keys[m]
    ensures var an := Analyze(group, keys);
            (forall k :: k in an.sorted ==> k in an.table)
            && multiset(SortedImportTexts(an)) == multiset(SourcePieces(group))
  {
    var an := Analyze(group, keys);
    var pt := PieceTable(an.table);
    assert an.table == KeyTable(keys, group);
    SortedKeysInTable(an, group);
    DistinctKeysLookup(group, keys, an.table);
    assert multiset(Lookup(pt, keys)) == multiset(Lookup(pt, an.sorted)) by {
      LookupPermutation(pt, keys, an.sorted);
    }
    assert SortedImportTexts(an) == Lookup(pt, an.sorted);
  }

  /** With distinct keys, each key looks up its own import's fix piece. */
  lemma DistinctKeysLookup(group: seq<Statement>, keys: seq<string>, table: map<string, Statement>)
    requires |keys| == |group| && table == KeyTable(keys, group)
    requires forall j, m :: 0 <= j < m < |group| ==> keys[j] != keys[m]
    ensures forall k :: k in keys ==> k in PieceTable(table)
    ensures Lookup(PieceTable(table), keys) == SourcePieces(group)
  {
    var pt := PieceTable(table);
    forall j | 0 <= j < |group| ensures Lookup(pt, keys)[j] == SourcePieces(group)[j] {
      assert IsLastOccurrence(keys, j);
      assert table[keys[j]] == group[j];
    }
  }

  /**
   * With a repeated key the table keeps only the last import carrying it, so
   * the fix lists that import once per occurrence of the key and drops the others.
   */
  lemma DuplicateKeyRepeatsLast(group: seq<Statement>, keys: seq<string>, j: int, m: int)
    requires |keys| == |group|
    requires 0 <= j < m < |group| && keys[j] == keys[m] && IsLastOccurrence(keys, m)
    ensures Analyze(group, keys).table[keys[j]] == group[m]
  {
  }

  // ---------------------------------------------------------------- the walk

  /** A sequence of import groups, each non-empty. */
  predicate ImportGroupsOnly(groups: seq<seq<Statement>>) {
    forall k :: 0 <= k < |groups| ==> |groups[k]| > 0 && forall s :: s in groups[k] ==> IsImportStatement(s)
  }

  /** Each group found is a non-empty run of imports. */
  lemma GroupsAreImportRuns(stmts: seq<Statement>, groups: seq<seq<Statement>>, spans: seq<IndexRange>)
    requires AreImportGroups(stmts, groups, spans)
    ensures ImportGroupsOnly(groups)
  {
    forall k | 0 <= k < |groups|
      ensures |groups[k]| > 0 && forall s :: s in groups[k] ==> IsImportStatement(s)
    {
      assert IsImportRun(stmts, spans[k].start, spans[k].end);
      forall s | s in groups[k] ensures IsImportStatement(s) {
        var j :| 0 <= j < |groups[k]| && groups[k][j] == s;
        assert s == stmts[spans[k].start + j];
      }
    }
  }

  /** The verdict of each group. */
  function Verdicts(groups: seq<seq<Statement>>, options: Options, newline: Newline): (vs: seq<Option<Failure>>)
    requires ImportGroupsOnly(groups)
    ensures |vs| == |groups|
    ensures forall k :: 0 <= k < |groups| ==> vs[k] == CheckGroup(groups[k], options, newline)
  {
    if |groups| == 0 then []
    else
      var n := |groups|;
      assert groups[n - 1] == groups[n - 1];
      Verdicts(groups[..n - 1], options, newline) + [CheckGroup(groups[n - 1], options, newline)]
  }

  /** The failures among the verdicts, in order: at most one per group. */
  function Reported(vs: seq<Option<Failure>>): (fs: seq<Failure>)
    ensures |fs| <= |vs|
    ensures fs == [] <==> forall k :: 0 <= k < |vs| ==> vs[k].None?
    ensures forall f :: f in fs <==> Some(f) in vs
  {
    if |vs| == 0 then []
    else
      var n := |vs|;
      var prev := Reported(vs[..n - 1]);
      assert vs == vs[..n - 1] + [vs[n - 1]];
      match vs[n - 1]
      case None => prev
      case Some(f) => prev + [f]
  }

  /**
   * `Rule.apply` with `Walker.walk`: the options come from the rule
   * arguments, the groups are the maximal runs of imports, and every group
   * contributes its failure, if any, in file order.
   */
  method Walk(stmts: seq<Statement>, ruleArguments: seq<string>, newline: Newline)
    returns (failures: seq<Failure>, groups: seq<seq<Statement>>, spans: seq<IndexRange>)
    ensures AreImportGroups(stmts, groups, spans)
    ensures ImportGroupsOnly(groups)
    ensures failures == Reported(Verdicts(groups, ParseOptions(ruleArguments), newline))
  {
    var options := ParseOptions(ruleArguments);
    var gs;
    gs, spans := GetImportGroups(stmts);
    groups := gs;
    GroupsAreImportRuns(stmts, gs, spans);
    failures := [];
    var k := 0;
    while k < |gs|
      invariant 0 <= k <= |gs|
      invariant failures == Reported(Verdicts(gs[..k], options, newline))
    {
      var r := CheckGroup(gs[k], options, newline);
      ReportedStep(gs, k, options, newline);
      if r.Some? {
        failures := failures + [r.value];
      }
      k := k + 1;
    }
    assert gs[..k] == gs;
  }

  /** One more group adds its failure, if any, at the end. */
  lemma ReportedStep(groups: seq<seq<Statement>>, k: int, options: Options, newline: Newline)
    requires ImportGroupsOnly(groups) && 0 <= k < |groups|
    ensures ImportGroupsOnly(groups[..k]) && ImportGroupsOnly(groups[..k + 1])
    ensures var r := CheckGroup(groups[k], options, newline);
            Reported(Verdicts(groups[..k + 1], options, newline))
            == Reported(Verdicts(groups[..k], options, newline)) + (if r.Some? then [r.value] else [])
  {
    VerdictsStep(groups, k, options, newline);
    ReportedSnoc(Verdicts(groups[..k], options, newline), CheckGroup(groups[k], options, newline));
  }

  lemma VerdictsStep(groups: seq<seq<Statement>>, k: int, options: Options, newline: Newline)
    requires ImportGroupsOnly(groups) && 0 <= k < |groups|
    ensures ImportGroupsOnly(groups[..k]) && ImportGroupsOnly(groups[..k + 1])
    ensures Verdicts(groups[..k + 1], options, newline)
            == Verdicts(groups[..k], options, newline) + [CheckGroup(groups[k], options, newline)]
  {
    assert groups[..k + 1][..k] == groups[..k];
  }

  /**
   * Failures come in group order: the failures of the verdicts `a + b` are
   * those of `a` followed by those of `b`.
   */
  lemma {:induction false} ReportedInOrder(a: seq<Option<Failure>>, b: seq<Option<Failure>>)
    ensures Reported(a + b) == Reported(a) + Reported(b)
    decreases |b|
  {
    if |b| == 0 {
      assert a + b == a;
    } else {
      var init, last := b[..|b| - 1], b[|b| - 1];
      assert a + b == (a + init) + [last];
      assert b == init + [last];
      ReportedInOrder(a, init);
      ReportedSnoc(a + init, last);
      ReportedSnoc(init, last);
    }
  }

  lemma ReportedSnoc(vs: seq<Option<Failure>>, r: Option<Failure>)
    ensures Reported(vs + [r]) == Reported(vs) + (if r.Some? then [r.value] else [])
  {
    assert (vs + [r])[..|vs|] == vs;
  }
}

=== FILE: strings.dfy ===
/**
 * The JavaScript string primitives the rules rely on, over `string` (a
 * sequence of `char`): the `\s` character class and `trim`, ASCII
 * `toLowerCase`, first-occurrence `indexOf`/`replace`, `Array.prototype.join`,
 * and the whitespace normalisation of the import-order rule.
 */
module Strings {
  import opened Wrappers

  /** ECMAScript WhiteSpace and LineTerminator: what `\s` matches and what `trim` removes. */
  predicate IsWhitespace(c: char) {
    || c == '\t' || c == '\n' || c == '\U{B}' || c == '\U{C}' || c == '\r' || c == ' '
    || c == '\U{A0}' || c == '\U{1680}' || ('\U{2000}' <= c <= '\U{200A}')
    || c == '\U{2028}' || c == '\U{2029}' || c == '\U{202F}' || c == '\U{205F}'
    || c == '\U{3000}' || c == '\U{FEFF}'
  }

  predicate AllWhitespace(s: string) {
    forall i :: 0 <= i < |s| ==> IsWhitespace(s[i])
  }

  // ---------------------------------------------------------------- lower case

  function LowerChar(c: char): (d: char)
    ensures IsWhitespace(c) ==> d == c
    ensures !('A' <= d <= 'Z')
  {
    if 'A' <= c <= 'Z' then (c as int - 'A' as int + 'a' as int) as char else c
  }

  /** `toLowerCase` restricted to ASCII letters; every other character is kept. */
  function Lower(s: string): (r: string)
    ensures |r| == |s|
    ensures forall i :: 0 <= i < |s| ==> r[i] == LowerChar(s[i])
  {
    seq(|s|, i requires 0 <= i < |s| => LowerChar(s[i]))
  }

  lemma LowerConcat(a: string, b: string)
    ensures Lower(a + b) == Lower(a) + Lower(b)
  {
    assert forall i :: 0 <= i < |a + b| ==> Lower(a + b)[i] == (Lower(a) + Lower(b))[i];
  }

  lemma LowerKeepsWhitespace(w: string)
    requires AllWhitespace(w)
    ensures Lower(w) == w
  {
  }

  /** Lower-casing text around a white-space run leaves the run in place. */
  lemma LowerAroundRun(a: string, w: string, q: string)
    requires AllWhitespace(w)
    ensures Lower(a + w + q) == Lower(a) + w + Lower(q)
  {
    LowerConcat(a + w, q);
    LowerConcat(a, w);
    LowerKeepsWhitespace(w);
  }

  // ---------------------------------------------------------------- trim

  /** Drops the leading white space of `s`. */
  function TrimStart(s: string): (r: string)
    ensures |r| <= |s| && r == s[|s| - |r|..]
    ensures AllWhitespace(s[..|s| - |r|])
    ensures r == [] || !IsWhitespace(r[0])
  {
    if |s| > 0 && IsWhitespace(s[0]) then
      var r := TrimStart(s[1..]);
      TrimStartStep(s, r);
      r
    else s
  }

  /** One white-space character in front of what `TrimStart` skipped is skipped too. */
  lemma TrimStartStep(s: string, r: string)
    requires |s| > 0 && IsWhitespace(s[0])
    requires |r| <= |s| - 1 && r == s[1..][|s| - 1 - |r|..] && AllWhitespace(s[1..][..|s| - 1 - |r|])
    ensures r == s[|s| - |r|..] && AllWhitespace(s[..|s| - |r|])
  {
    var n := |s| - |r|;
    forall j | 0 <= j < n ensures IsWhitespace(s[..n][j]) {
      if j > 0 {
        assert s[..n][j] == s[1..][..n - 1][j - 1];
      }
    }
    assert s[n..] == s[1..][n - 1..];
  }

  /** Drops the trailing white space of `s`. */
  function TrimEnd(s: string): (r: string)
    ensures |r| <= |s| && r == s[..|r|]
    ensures AllWhitespace(s[|r|..])
    ensures r == [] || !IsWhitespace(r[|r| - 1])
  {
    if |s| > 0 && IsWhitespace(s[|s| - 1]) then
      var r := TrimEnd(s[..|s| - 1]);
      assert s[|r|..] == s[..|s| - 1][|r|..] + [s[|s| - 1]];
      assert s[..|r|] == s[..|s| - 1][..|r|];
      r
    else s
  }

  /** `String.prototype.trim`: white space removed at both ends. */
  function Trim(s: string): (r: string)
    ensures |r| <= |s|
    ensures r == [] || (!IsWhitespace(r[0]) && !IsWhitespace(r[|r| - 1]))
  {
    TrimEnd(TrimStart(s))
  }

  /** `r` is the slice of `s` from `i` on, with nothing but white space around it. */
  predicate WhitespaceAround(s: string, r: string, i: int) {
    0 <= i && i + |r| <= |s| && r == s[i..i + |r|] && AllWhitespace(s[..i]) && AllWhitespace(s[i + |r|..])
  }

  /** `trim` removes white space at the two ends and nothing else: the result is a slice of `s` with only white space around it. */
  lemma TrimOnlyEdges(s: string)
    ensures exists i :: WhitespaceAround(s, Trim(s), i)
  {
    var t := TrimStart(s);
    var r := TrimEnd(t);
    WindowOfSuffixPrefix(s, t, r);
    assert WhitespaceAround(s, Trim(s), |s| - |t|);
  }

  /** A prefix `r` of a suffix `t` of `s`, with white space cut off on both sides, is such a window. */
  lemma WindowOfSuffixPrefix(s: string, t: string, r: string)
    requires |t| <= |s| && t == s[|s| - |t|..] && AllWhitespace(s[..|s| - |t|])
    requires |r| <= |t| && r == t[..|r|] && AllWhitespace(t[|r|..])
    ensures WhitespaceAround(s, r, |s| - |t|)
  {
    var i := |s| - |t|;
    assert s[i..i + |r|] == t[..|r|];
    assert s[i + |r|..] == t[|r|..];
  }

  /** `trim` brings in no character: everything in its result is in its input. */
  lemma TrimKeepsOnly(s: string, c: char)
    ensures c in Trim(s) ==> c in s
  {
    var t := TrimStart(s);
    InPrefix(t, |TrimEnd(t)|, c);
    InSuffix(s, |s| - |t|, c);
  }

  lemma InPrefix(s: string, n: int, c: char)
    requires 0 <= n <= |s|
    ensures c in s[..n] ==> c in s
  {
    if c in s[..n] {
      var p :| 0 <= p < n && s[..n][p] == c;
      assert s[p] == c;
    }
  }

  lemma InSuffix(s: string, n: int, c: char)
    requires 0 <= n <= |s|
    ensures c in s[n..] ==> c in s
  {
    if c in s[n..] {
      var p :| 0 <= p < |s| - n && s[n..][p] == c;
      assert s[n + p] == c;
    }
  }

  /** Trimming only removes white space: a string with no white space at either end is its own trim. */
  lemma TrimOfTrimmed(s: string)
    requires s == [] || (!IsWhitespace(s[0]) && !IsWhitespace(s[|s| - 1]))
    ensures Trim(s) == s
  {
  }

  // ---------------------------------------------------------------- search

  predicate OccursAt(s: string, pat: string, i: int) {
    0 <= i && i + |pat| <= |s| && s[i..i + |pat|] == pat
  }

  /** The first position at or after `from` where `pat` occurs in `s`. */
  function FindFrom(s: string, pat: string, from: nat): (r: Option<nat>)
    decreases |s| - from
    ensures r.Some? ==> from <= r.value && OccursAt(s, pat, r.value)
    ensures r.Some? ==> forall j :: from <= j < r.value ==> !OccursAt(s, pat, j)
    ensures r.None? ==> forall j :: from <= j ==> !OccursAt(s, pat, j)
  {
    if from + |pat| > |s| then None
    else if s[from..from + |pat|] == pat then Some(from)
    else FindFrom(s, pat, from + 1)
  }

  /** `s.indexOf(pat)`, with `None` for -1. */
  function IndexOf(s: string, pat: string): (r: Option<nat>)
    ensures r.Some? ==> OccursAt(s, pat, r.value) && forall j :: 0 <= j < r.value ==> !OccursAt(s, pat, j)
    ensures r.None? <==> forall j :: !OccursAt(s, pat, j)
  {
    FindFrom(s, pat, 0)
  }

  predicate Contains(s: string, pat: string) {
    IndexOf(s, pat).Some?
  }

  /** An occurrence that lies wholly after a prefix `p` is an occurrence in the rest. */
  lemma OccursAfterPrefix(p: string, s: string, pat: string, j: int)
    requires OccursAt(p + s, pat, j) && j >= |p|
    ensures OccursAt(s, pat, j - |p|)
  {
    assert (p + s)[j..j + |pat|] == s[j - |p|..j - |p| + |pat|];
  }

  /** A prefix none of whose characters starts the pattern neither adds nor hides an occurrence. */
  lemma ContainsAfterPrefix(p: string, s: string, pat: string)
    requires |pat| > 0 && pat[0] !in p
    ensures Contains(p + s, pat) <==> Contains(s, pat)
  {
    match IndexOf(p + s, pat)
    case Some(j) =>
      assert (p + s)[j..j + |pat|][0] == (p + s)[j] == pat[0];
      OccursAfterPrefix(p, s, pat, j);
      assert IndexOf(s, pat).Some?;
    case None =>
      if IndexOf(s, pat).Some? {
        var k := IndexOf(s, pat).value;
        assert (p + s)[k + |p|..k + |p| + |pat|] == s[k..k + |pat|];
        assert OccursAt(p + s, pat, k + |p|);
      }
  }

  /** `s.replace(pat, rep)` with a string pattern: only the first occurrence is replaced. */
  function ReplaceFirst(s: string, pat: string, rep: string): (r: string)
    ensures IndexOf(s, pat).None? ==> r == s
    ensures IndexOf(s, pat).Some? ==>
              var i := IndexOf(s, pat).value;
              s == s[..i] + pat + s[i + |pat|..] && r == s[..i] + rep + s[i + |pat|..]
  {
    match IndexOf(s, pat)
    case None => s
    case Some(i) =>
      assert s == s[..i] + pat + s[i + |pat|..];
      s[..i] + rep + s[i + |pat|..]
  }

  /** `replace` brings in no character that is in neither the text nor the replacement. */
  lemma ReplaceFirstAddsOnlyReplacement(s: string, pat: string, rep: string, c: char)
    ensures c in ReplaceFirst(s, pat, rep) ==> c in s || c in rep
  {
    match IndexOf(s, pat)
    case None =>
    case Some(i) =>
      var u, v := s[..i], s[i + |pat|..];
      assert c in u + rep + v ==> c in u || c in rep || c in v;
      InPrefix(s, i, c);
      InSuffix(s, i + |pat|, c);
  }

  /** `replace` keeps every character that does not occur in the pattern. */
  lemma ReplaceFirstKeeps(s: string, pat: string, rep: string, c: char)
    requires c in s && c !in pat
    ensures c in ReplaceFirst(s, pat, rep)
  {
    var idx := IndexOf(s, pat);
    if idx.Some? {
      var i := idx.value;
      var before, after := s[..i], s[i + |pat|..];
      assert ReplaceFirst(s, pat, rep) == before + rep + after;
      assert c in before || c in after by {
        assert s == before + pat + after;
        InConcat3(before, pat, after, c);
      }
      InConcat3(before, rep, after, c);
    }
  }

  /** A character of a three-part concatenation lies in one of the parts. */
  lemma InConcat3<T>(a: seq<T>, b: seq<T>, c: seq<T>, x: T)
    ensures x in a + b + c <==> x in a || x in b || x in c
  {
    assert x in a + b <==> x in a || x in b;
  }

  /** When `s` begins with `pat`, `replace` swaps exactly that prefix. */
  lemma ReplaceFirstAtStart(s: string, pat: string, rep: string)
    requires |pat| <= |s| && s[..|pat|] == pat
    ensures ReplaceFirst(s, pat, rep) == rep + s[|pat|..]
  {
    assert IndexOf(s, pat) == Some(0) by { assert OccursAt(s, pat, 0); }
    assert s[..0] + rep + s[|pat|..] == rep + s[|pat|..];
  }

  // ---------------------------------------------------------------- counting

  /** Number of occurrences of `c` in `s` (the length of `s.match(/c/g)`). */
  function Count(s: string, c: char): (n: nat)
    ensures n <= |s|
    ensures n == 0 <==> c !in s
  {
    if |s| == 0 then 0
    else Count(s[1..], c) + (if s[0] == c then 1 else 0)
  }

  lemma {:induction false} CountConcat(a: string, b: string, c: char)
    ensures Count(a + b, c) == Count(a, c) + Count(b, c)
    decreases |a|
  {
    if |a| > 0 {
      assert (a + b)[1..] == a[1..] + b;
      CountConcat(a[1..], b, c);
    } else {
      assert a + b == b;
    }
  }

  // ---------------------------------------------------------------- UTF-16 length

  /**
   * JavaScript's `length`: the number of UTF-16 code units. A character above
   * U+FFFF is stored as a surrogate pair and counts twice.
   */
  function Utf16Length(s: string): (n: nat)
    ensures |s| <= n <= 2 * |s|
    ensures n == |s| <==> forall i :: 0 <= i < |s| ==> s[i] as int <= 0xFFFF
  {
    if |s| == 0 then 0
    else Utf16Length(s[1..]) + (if s[0] as int <= 0xFFFF then 1 else 2)
  }

  lemma {:induction false} Utf16LengthConcat(a: string, b: string)
    ensures Utf16Length(a + b) == Utf16Length(a) + Utf16Length(b)
    decreases |a|
  {
    if |a| > 0 {
      assert (a + b)[1..] == a[1..] + b;
      assert (a + b)[0] == a[0];
      Utf16LengthConcat(a[1..], b);
    } else {
      assert a + b == b;
    }
  }

  /** One character outside the Basic Multilingual Plane makes the UTF-16 length exceed the character count by one. */
  lemma OneSupplementaryChar(p: string, c: char, q: string)
    requires c as int > 0xFFFF
    requires forall i :: 0 <= i < |p| ==> p[i] as int <= 0xFFFF
    requires forall i :: 0 <= i < |q| ==> q[i] as int <= 0xFFFF
    ensures Utf16Length(p + [c] + q) == |p + [c] + q| + 1
  {
    Utf16LengthConcat(p + [c], q);
    Utf16LengthConcat(p, [c]);
    assert [c][1..] == [];
  }

  // ---------------------------------------------------------------- join

  /** The summed lengths of the parts. */
  function TotalLength(parts: seq<string>): nat {
    if |parts| == 0 then 0 else TotalLength(parts[..|parts| - 1]) + |parts[|parts| - 1]|
  }

  /** `Array.prototype.join(sep)`. */
  function Join(parts: seq<string>, sep: string): (r: string)
    ensures |parts| == 0 ==> r == ""
    ensures |parts| > 0 ==> |r| == TotalLength(parts) + (|parts| - 1) * |sep|
  {
    if |parts| == 0 then ""
    else if |parts| == 1 then parts[0]
    else Join(parts[..|parts| - 1], sep) + sep + parts[|parts| - 1]
  }

  /** Joining two non-empty lists is joining each, with one separator between the two results. */
  lemma {:induction false} JoinAppend(a: seq<string>, b: seq<string>, sep: string)
    requires |a| > 0 && |b| > 0
    ensures Join(a + b, sep) == Join(a, sep) + sep + Join(b, sep)
    decreases |b|
  {
    var ab := a + b;
    var last := b[|b| - 1];
    assert |ab| > 1 && ab[|ab| - 1] == last;
    assert Join(ab, sep) == Join(ab[..|ab| - 1], sep) + sep + last;
    if |b| == 1 {
      assert ab[..|ab| - 1] == a;
      assert Join(b, sep) == last;
    } else {
      var b' := b[..|b| - 1];
      assert ab[..|ab| - 1] == a + b';
      JoinAppend(a, b', sep);
      assert Join(b, sep) == Join(b', sep) + sep + last;
    }
  }

  // ---------------------------------------------------------------- white-space normalisation

  /** The characters of `s` that are not white space, in order. */
  function NonWhitespace(s: string): string {
    if |s| == 0 then ""
    else (if IsWhitespace(s[0]) then "" else [s[0]]) + NonWhitespace(s[1..])
  }

  lemma {:induction false} NonWhitespaceConcat(a: string, b: string)
    ensures NonWhitespace(a + b) == NonWhitespace(a) + NonWhitespace(b)
    decreases |a|
  {
    if |a| > 0 {
      assert (a + b)[1..] == a[1..] + b;
      NonWhitespaceConcat(a[1..], b);
    } else {
      assert a + b == b;
    }
  }

  lemma {:induction false} NonWhitespaceOfWhitespace(w: string)
    requires AllWhitespace(w)
    ensures NonWhitespace(w) == ""
    decreases |w|
  {
    if |w| > 0 {
      NonWhitespaceOfWhitespace(w[1..]);
    }
  }

  lemma {:induction false} InNonWhitespace(x: string, c: char)
    requires !IsWhitespace(c)
    ensures c in x <==> c in NonWhitespace(x)
    decreases |x|
  {
    if |x| > 0 {
      InNonWhitespace(x[1..], c);
      assert x == [x[0]] + x[1..];
    }
  }

  /** Collapsing white space neither adds nor removes any other character. */
  lemma CollapseKeepsChar(x: string, c: char)
    requires !IsWhitespace(c)
    ensures c in CollapseWhitespace(x) <==> c in x
  {
    InNonWhitespace(x, c);
    InNonWhitespace(CollapseWhitespace(x), c);
  }

  /** Every white-space character is a plain space, and no two of them are adjacent. */
  ghost predicate Collapsed(s: string) {
    && (forall i :: 0 <= i < |s| && IsWhitespace(s[i]) ==> s[i] == ' ')
    && (forall i, j :: 0 <= i < j < |s| && j == i + 1 && IsWhitespace(s[j]) ==> !IsWhitespace(s[i]))
  }

  /** `s.replace(/[\s]+/g, ' ')`: every maximal run of white space becomes one space. */
  function CollapseWhitespace(s: string): (r: string)
    decreases |s|
    ensures Collapsed(r)
    ensures NonWhitespace(r) == NonWhitespace(s)
    ensures |r| == 0 <==> |s| == 0
    ensures |s| > 0 ==> (IsWhitespace(r[0]) <==> IsWhitespace(s[0]))
  {
    if |s| == 0 then ""
    else if IsWhitespace(s[0]) then
      var t := TrimStart(s);
      var rest := CollapseWhitespace(t);
      SkippedRunHasNoWord(s);
      CollapsedCons(' ', rest);
      " " + rest
    else
      var rest := CollapseWhitespace(s[1..]);
      CollapsedCons(s[0], rest);
      [s[0]] + rest
  }

  /** The white space `TrimStart` skips holds none of the other characters. */
  lemma SkippedRunHasNoWord(s: string)
    ensures NonWhitespace(TrimStart(s)) == NonWhitespace(s)
  {
    var t := TrimStart(s);
    assert s == s[..|s| - |t|] + t;
    NonWhitespaceConcat(s[..|s| - |t|], t);
    NonWhitespaceOfWhitespace(s[..|s| - |t|]);
  }

  /** One character in front of a collapsed string, as `CollapseWhitespace` puts it there. */
  lemma CollapsedCons(c: char, rest: string)
    requires Collapsed(rest)
    requires IsWhitespace(c) ==> c == ' ' && (|rest| == 0 || !IsWhitespace(rest[0]))
    ensures Collapsed([c] + rest)
    ensures NonWhitespace([c] + rest) == (if IsWhitespace(c) then "" else [c]) + NonWhitespace(rest)
  {
    var t := [c] + rest;
    assert t[1..] == rest;
    forall i | 0 < i < |t| ensures t[i] == rest[i - 1] {
    }
  }

  /** A string that is already collapsed is left unchanged. */
  lemma {:induction false} CollapseFixpoint(s: string)
    requires Collapsed(s)
    ensures CollapseWhitespace(s) == s
    decreases |s|
  {
    if |s| > 0 {
      CollapsedTail(s);
      CollapseFixpoint(s[1..]);
      if IsWhitespace(s[0]) {
        CollapseFixpointSpace(s);
      } else {
        CollapseFixpointWord(s);
      }
    }
  }

  lemma CollapsedTail(s: string)
    requires |s| > 0 && Collapsed(s)
    ensures Collapsed(s[1..])
    ensures IsWhitespace(s[0]) ==> s[0] == ' ' && (|s| == 1 || !IsWhitespace(s[1]))
  {
  }

  lemma CollapseFixpointSpace(s: string)
    requires |s| > 1 ==> !IsWhitespace(s[1])
    requires |s| > 0 && s[0] == ' ' && CollapseWhitespace(s[1..]) == s[1..]
    ensures CollapseWhitespace(s) == s
  {
    assert TrimStart(s[1..]) == s[1..];
    assert s == " " + s[1..];
  }

  lemma CollapseFixpointWord(s: string)
    requires |s| > 0 && !IsWhitespace(s[0]) && CollapseWhitespace(s[1..]) == s[1..]
    ensures CollapseWhitespace(s) == s
  {
    assert s == [s[0]] + s[1..];
  }

  /** Collapsing white space is idempotent. */
  lemma CollapseIdempotent(s: string)
    ensures CollapseWhitespace(CollapseWhitespace(s)) == CollapseWhitespace(s)
  {
    CollapseFixpoint(CollapseWhitespace(s));
  }

  lemma {:induction false} TrimStartSkipsRun(w: string, q: string)
    requires AllWhitespace(w)
    ensures TrimStart(w + q) == TrimStart(q)
    decreases |w|
  {
    if |w| > 0 {
      assert (w + q)[1..] == w[1..] + q;
      TrimStartSkipsRun(w[1..], q);
    } else {
      assert w + q == q;
    }
  }

  /** A leading run of white space collapses to one space in front of the rest. */
  lemma CollapseLeadingRun(w: string, x: string)
    requires |w| > 0 && AllWhitespace(w)
    ensures CollapseWhitespace(w + x) == " " + CollapseWhitespace(TrimStart(x))
  {
    assert (w + x)[0] == w[0];
    TrimStartSkipsRun(w, x);
  }

  /** The first step of collapsing `p + w + q` when `p` starts with a character that is not white space. */
  lemma CollapsePlainHead(p: string, w: string, q: string)
    requires |p| > 0 && !IsWhitespace(p[0])
    ensures CollapseWhitespace(p + w + q) == [p[0]] + CollapseWhitespace(p[1..] + w + q)
  {
    assert (p + w + q)[0] == p[0] && (p + w + q)[1..] == p[1..] + w + q;
  }

  /** A prefix without white space stays as it is in front of the collapsed rest. */
  lemma {:induction false} CollapseWordPrefix(p: string, x: string)
    requires forall i :: 0 <= i < |p| ==> !IsWhitespace(p[i])
    ensures CollapseWhitespace(p + x) == p + CollapseWhitespace(x)
    decreases |p|
  {
    if |p| > 0 {
      CollapseWordStep(p, x);
      CollapseWordPrefix(p[1..], x);
      HeadTailAppend(p, CollapseWhitespace(x));
    } else {
      assert p + x == x;
    }
  }

  /** Putting the head of `p` back in front of its tail and a suffix gives `p` and the suffix. */
  lemma HeadTailAppend<T>(p: seq<T>, s: seq<T>)
    requires |p| > 0
    ensures [p[0]] + (p[1..] + s) == p + s
  {
    assert p == [p[0]] + p[1..];
  }

  lemma CollapseWordStep(p: string, x: string)
    requires |p| > 0 && !IsWhitespace(p[0])
    ensures CollapseWhitespace(p + x) == [p[0]] + CollapseWhitespace(p[1..] + x)
  {
    var s := p + x;
    assert s[0] == p[0] && s[1..] == p[1..] + x;
  }

  /**
   * A white-space run after a word becomes exactly one space, and the white
   * space that follows it at once is absorbed into the same run.
   */
  lemma CollapseRunBecomesSpace(p: string, w: string, q: string)
    requires forall i :: 0 <= i < |p| ==> !IsWhitespace(p[i])
    requires |w| > 0 && AllWhitespace(w)
    ensures CollapseWhitespace(p + w + q) == p + " " + CollapseWhitespace(TrimStart(q))
  {
    var rest := CollapseWhitespace(TrimStart(q));
    calc {
      CollapseWhitespace(p + w + q);
      { AppendAssoc(p, w, q); }
      CollapseWhitespace(p + (w + q));
      { CollapseWordPrefix(p, w + q); }
      p + CollapseWhitespace(w + q);
      { CollapseLeadingRun(w, q); }
      p + (" " + rest);
      { AppendAssoc(p, " ", rest); }
      p + " " + rest;
    }
  }

  lemma AppendAssoc<T>(a: seq<T>, b: seq<T>, c: seq<T>)
    ensures a + b + c == a + (b + c)
  {
  }

  /** Collapsing `p + w + q` when `p` and `w` are white space only: the run takes `w` in too. */
  lemma CollapseSpaceOnlyHead(p: string, w: string, q: string)
    requires AllWhitespace(p) && |w| > 0 && AllWhitespace(w)
    ensures CollapseWhitespace(p + w + q) == " " + CollapseWhitespace(TrimStart(q))
  {
    assert p + w + q == (p + w) + q;
    assert AllWhitespace(p + w);
    CollapseLeadingRun(p + w, q);
  }

  /** Text after a prefix that is not all white space is untouched by `TrimStart`. */
  lemma {:induction false} TrimStartConcat(p: string, w: string, q: string)
    requires |TrimStart(p)| > 0
    ensures TrimStart(p + w + q) == TrimStart(p) + w + q
    decreases |p|
  {
    assert (p + w + q)[0] == p[0];
    if IsWhitespace(p[0]) {
      assert (p + w + q)[1..] == p[1..] + w + q;
      TrimStartConcat(p[1..], w, q);
    }
  }

  /**
   * The first step of collapsing `p + w + q` when `p` starts with white space
   * and goes on with something else: the leading run of `p` becomes one space.
   */
  lemma CollapseSpaceHead(p: string, w: string, q: string)
    requires |p| > 0 && IsWhitespace(p[0]) && |TrimStart(p)| > 0
    ensures CollapseWhitespace(p + w + q) == " " + CollapseWhitespace(TrimStart(p) + w + q)
  {
    assert (p + w + q)[0] == p[0];
    TrimStartConcat(p, w, q);
  }

  /**
   * Collapsing only sees whether a run of white space is there, not what it is made of:
   * replacing one non-empty run by another leaves the result unchanged.
   */
  lemma {:induction false} CollapseRunInsensitive(p: string, w1: string, w2: string, q: string)
    requires |w1| > 0 && AllWhitespace(w1)
    requires |w2| > 0 && AllWhitespace(w2)
    ensures CollapseWhitespace(p + w1 + q) == CollapseWhitespace(p + w2 + q)
    decreases |p|
  {
    if |p| == 0 {
      assert p + w1 + q == w1 + q && p + w2 + q == w2 + q;
      CollapseLeadingRun(w1, q);
      CollapseLeadingRun(w2, q);
    } else if !IsWhitespace(p[0]) {
      CollapsePlainHead(p, w1, q);
      CollapsePlainHead(p, w2, q);
      CollapseRunInsensitive(p[1..], w1, w2, q);
    } else {
      var t := TrimStart(p);
      if |t| == 0 {
        assert AllWhitespace(p) by { assert p[..|p| - |t|] == p; }
        CollapseSpaceOnlyHead(p, w1, q);
        CollapseSpaceOnlyHead(p, w2, q);
      } else {
        CollapseSpaceHead(p, w1, q);
        CollapseSpaceHead(p, w2, q);
        CollapseRunInsensitive(t, w1, w2, q);
      }
    }
  }

  /** `normalizeAllWhitespace`: collapse white-space runs, then turn the first `", }"` into `" }"`. */
  function NormalizeAllWhitespace(s: string): (r: string)
  {
    ReplaceFirst(CollapseWhitespace(s), ", }", " }")
  }

  /** Two texts that differ only in what one white-space run is made of normalise to the same text. */
  lemma NormalizeRunInsensitive(p: string, w1: string, w2: string, q: string)
    requires |w1| > 0 && AllWhitespace(w1)
    requires |w2| > 0 && AllWhitespace(w2)
    ensures NormalizeAllWhitespace(p + w1 + q) == NormalizeAllWhitespace(p + w2 + q)
  {
    CollapseRunInsensitive(p, w1, w2, q);
  }
}

=== FILE: wrappers.dfy ===
/** Optional values shared by the rule models. */
module Wrappers {

  /** A value that may be absent: the model of JavaScript's `undefined` / `null` results. */
  datatype Option<+T> = None | Some(value: T)
}
